=== FILE: README.md ===
# tfcli provider: a Dafny model of `tfcli_apply`

This project models the core of the Terraform provider `tfcli`. Its one
resource, `tfcli_apply`, runs a Terraform module as part of a Terraform run:

- It resolves a Terraform binary.
- It picks a working directory: a local `module_path`, or a fresh temp
  directory into which the module `source:version` is fetched.
- It configures the Terraform client with backend variables, environment,
  module variables and registry credentials.
- It stages the configured extra files into the module directory.
- It runs `init`, then the operation-specific runner: plan, apply and read
  outputs for Create and Update; destroy for Delete.
- It records the resource id.

Deferred clean-ups run on every exit after they are registered:

- the plan file is removed, once planning has started;
- the extra files marked `cleanup` are removed, once staging has started
  (so not after a failed module fetch);
- the temp directory is removed, once it has been created, and last.

The provider-level configuration contributes registry credentials and extra
files. These are merged after the resource's own.

The model is purely functional. The filesystem is a record of a directory set
and a map from path to bytes (`Filesystem.Fs`). Every collaborator outside
the provider is an input gathered in `Orchestrator.World`:

- the binary lookup or download;
- the temp directory's random name;
- the module fetch;
- stat and write failures;
- the outcome of each Terraform client phase;
- the captured diagnostic buffer.

`Orchestrator.Run` is a pure function of the request, the provider client,
the world, the filesystem and the prior state. It returns:

- the diagnostics;
- the final filesystem;
- the final state (id and outputs);
- the client configuration;
- the phases attempted, in order;
- the deferred clean-ups that ran, in order.

Modules:

- `Wrappers`: `Option`, `Result` and `Outcome`, plus prefix and suffix predicates.
- `Encoding`: the UTF-8 encoding behind Go's `[]byte(string)` conversion, and its decoder.
- `GoText`: `fmt.Sprint` of scalar values, decimal parsing, `strings.TrimSpace` and the `/`-to-`_` replacement.
- `Filesystem`: paths, `filepath.Join` as concatenation, stat, write, remove and recursive remove.
- `Provider`: `provider.go`, covering the registry and extra-file parses, `configure` and the schema description builder.
- `VarCoercion`: `toStringMap` and `toEnvStringMap`.
- `FileStaging`: `writeFiles` and `cleanupFiles`.
- `Orchestrator`: `terraformBin`, the identity, temp directory and client configuration, the runners, `run`, and Create/Update/Delete.
- `RunProperties` and `RunEffects`: what a run promises, covering:
  - phase order and short-circuiting;
  - deferred clean-ups;
  - error texts;
  - the state;
  - the filesystem;
  - the variable delivery.

Three behaviours of the code are worth knowing, and the model keeps them:

- **Delete keeps an id.** The Delete runner clears the id
  (`internal/provider/resource_apply.go:401`). But `run` sets the id again
  after a successful runner (`internal/provider/resource_apply.go:355`), so a
  successful Delete leaves the computed identity as the id
  (`RunEffects.DeleteLeavesIdSet`).
- **Init label capitalisation.** The init failure label is
  `Terraform init failed:` with a capital T, unlike the lower-case runner
  labels (`internal/provider/resource_apply.go:348` against `internal/provider/resource_apply.go:367`).
- **Cleanup after a conflict.** The extra-file cleanup is deferred before
  the conflict pre-check (`internal/provider/resource_apply.go:339-343`). So
  a staging conflict on a file marked `cleanup` deletes the module's own
  file that caused the conflict. `RunEffects.ConflictDeletesModuleFile`
  shows this for a module's `main.tf`.

## Model

| member | source | states |
|---|---|---|
| Encoding.EncodeRune | internal/provider/provider.go:84 | one character becomes 1 to 4 bytes: a lead byte announcing the length, then continuation bytes |
| Encoding.Encode | internal/provider/provider.go:84 | the bytes of a string are at least as many as its characters and at most four times as many, exactly as many for ASCII text |
| Encoding.CodePointOfRune | internal/provider/provider.go:84 | decoding the bytes of one character gives back its code point |
| Encoding.DecodeEncode | internal/provider/provider.go:84 | the `[]byte` conversion of file content loses nothing: decoding it gives back the configured string |
| Encoding.EncodeInjective | internal/provider/provider.go:84 | distinct content strings give distinct byte contents |
| GoText.Decimal | internal/provider/resource_apply.go:149 | `fmt.Sprint` of a natural number is a non-empty run of decimal digits without a leading zero |
| GoText.ParseDecimalRoundTrip | internal/provider/resource_apply.go:149 | reading the printed digits back gives the number |
| GoText.SprintIntRoundTrip | internal/provider/resource_apply.go:149 | `fmt.Sprint` of any integer, negative ones included, reads back as that integer, so a numeric variable reaches Terraform unchanged |
| GoText.TrimLeft | internal/provider/provider.go:25 | the result is a suffix of the input, only whitespace was dropped, and it does not start with whitespace |
| GoText.TrimRight | internal/provider/provider.go:25 | the result is a prefix of the input, only whitespace was dropped, and it does not end with whitespace |
| GoText.TrimSpace | internal/provider/provider.go:25 | the result has no leading or trailing whitespace and is no longer than the input |
| GoText.TrimSpaceOfPadded | internal/provider/provider.go:25 | trimming text padded with whitespace on both sides gives exactly the text |
| GoText.TrimSpaceBeforeWord | internal/provider/provider.go:25 | trimming text, a space and a word that starts and ends with non-whitespace trims only the front of the text, and leaves just the word when the text is all whitespace |
| GoText.AllSpaceTrimsToEmpty | internal/provider/provider.go:25 | a description that is all whitespace trims to the empty string |
| GoText.ReplaceSlashes | internal/provider/resource_apply.go:245 | the name hint has the source's length, with each `/` replaced by `_` and every other character kept |
| Filesystem.JoinIsUnder | internal/provider/resource_apply.go:165 | a joined path lies inside the directory it was joined to |
| Filesystem.JoinInjective | internal/provider/resource_apply.go:176 | in the model, where joining does not clean paths, two relative paths name the same file within one directory exactly when they are equal |
| Filesystem.Stat | internal/provider/resource_apply.go:177 | stat reports not-exist exactly when the path is neither a file nor a directory and its stat does not fail |
| Filesystem.WriteFile | internal/provider/resource_apply.go:193 | a write creates or overwrites exactly the one file, keeping every directory and every other file |
| Filesystem.Remove | internal/provider/resource_apply.go:166 | a remove deletes exactly the one file and keeps everything else |
| Filesystem.RemoveAll | internal/provider/resource_apply.go:249 | a recursive remove leaves nothing at or inside the directory and keeps everything outside it |
| Filesystem.RemoveAllForgetsInside | internal/provider/resource_apply.go:249 | once the directory is removed, whatever happened inside it makes no difference |
| Filesystem.RemoveAllOfFresh | internal/provider/resource_apply.go:245-249 | removing a directory that did not exist before restores the filesystem exactly |
| Provider.RegistryCreds | internal/provider/provider.go:64-75 | one credential per `registry` block, in order, the host as the credential's type and the token copied |
| Provider.RegistryCredsAppend | internal/provider/provider.go:64-75 | the parse works block by block: parsing two lists together is parsing each and appending |
| Provider.ParseExtraFiles | internal/provider/provider.go:77-90 | one extra file per block, in order, with path, force and cleanup copied and the content string's bytes as content |
| Provider.ParseExtraFilesAppend | internal/provider/provider.go:77-90 | the parse works block by block: parsing two lists together is parsing each and appending |
| Provider.ParsedContentDecodes | internal/provider/provider.go:84 | the bytes stored for a block decode back to the configured content string |
| Provider.Configure | internal/provider/provider.go:55-62 | the provider client holds exactly the provider-level credentials and extra files, one per block, in order |
| Provider.SchemaDescription | internal/provider/provider.go:20-26 | the built description is trimmed; without a default it is the trimmed description; with one it is the description without its leading white space, a space and the `Defaults to` note, or the note alone when the description is blank |
| Provider.DescriptionKeepsNote | internal/provider/provider.go:23-25 | trimming never cuts into the appended `Defaults to` note |
| Provider.DescriptionWithNote | internal/provider/provider.go:23-25 | trimming the description with the note appended removes only the description's leading white space, or the description and the space entirely when it is blank |
| VarCoercion.ToStringMap | internal/provider/resource_apply.go:146-152 | exactly the input's keys, each with its value rendered by `fmt.Sprint` |
| VarCoercion.EnvKey | internal/provider/resource_apply.go:157 | an environment name is `TF_VAR_` followed by the variable name, which can be read back |
| VarCoercion.ToEnvStringMap | internal/provider/resource_apply.go:154-160 | the keys are exactly the `TF_VAR_`-prefixed input keys, each with its value rendered by `fmt.Sprint` |
| VarCoercion.EnvDeliversSameVars | internal/provider/resource_apply.go:154-160 | reading the variables back out of the `TF_VAR_` environment gives exactly the map passed as variables, so both deliveries agree |
| VarCoercion.CoercionKeepsSize | internal/provider/resource_apply.go:146-160 | both coercions keep the number of entries; no two variables collide |
| VarCoercion.PrefixImageSize | internal/provider/resource_apply.go:157 | prefixing is injective on any set of names |
| FileStaging.FirstConflict | internal/provider/resource_apply.go:172-182 | the pre-check finds the first conflicting non-forced spec, or none exactly when no spec conflicts |
| FileStaging.WriteAll | internal/provider/resource_apply.go:184-197 | the write pass keeps the directories and succeeds exactly when no target's write fails |
| FileStaging.WriteFilesReportsFirstConflict | internal/provider/resource_apply.go:172-182 | the first conflicting spec's path is named in the error, and nothing is written |
| FileStaging.WriteFilesWritesWhenClear | internal/provider/resource_apply.go:172-197 | when no spec conflicts, staging is exactly the write pass |
| FileStaging.ConflictWritesNothing | internal/provider/resource_apply.go:172-182 | a conflict anywhere comes from a non-forced spec, fails staging, and leaves the filesystem untouched |
| FileStaging.CleanupRemovesMarked | internal/provider/resource_apply.go:162-169 | cleanup removes exactly the targets of specs marked `cleanup` and keeps every other file and all directories |
| FileStaging.WriteAllAddsTargets | internal/provider/resource_apply.go:184-197 | a write pass without failures adds exactly the specs' targets to the files |
| FileStaging.WriteAllKeepsOthers | internal/provider/resource_apply.go:184-197 | a file that no spec targets keeps its content |
| FileStaging.WriteAllLastWriterWins | internal/provider/resource_apply.go:184-197 | a target named more than once holds the content of the last spec naming it |
| FileStaging.WriteAllStopsAtFirstFailure | internal/provider/resource_apply.go:189-196 | the write pass stops at the first failing write with its error; the earlier specs stay written, and the failed target holds whatever the failure left (unchanged, or truncated or partly written) |
| FileStaging.RepeatedAbsentPathLastWins | internal/provider/resource_apply.go:172-197 | two non-forced specs for the same absent path both pass the pre-check, and the second one's content ends up in the file |
| FileStaging.WriteOneFileIntoFreshDir | internal/provider/resource_apply_test.go:15-21 | writing one non-forced file into a directory that lacks it succeeds and adds exactly that file |
| FileStaging.WriteAllStaysInside | internal/provider/resource_apply.go:184-197 | the write pass changes nothing outside the module directory |
| FileStaging.WriteFilesStaysInside | internal/provider/resource_apply.go:171-199 | staging changes nothing outside the module directory |
| FileStaging.CleanupStaysInside | internal/provider/resource_apply.go:162-169 | cleanup changes nothing outside the module directory |
| Orchestrator.TerraformBin | internal/provider/resource_apply.go:204-223 | without a version the binary is found exactly when it is on PATH, with the lookup error otherwise; with a version the download decides |
| Orchestrator.Identity | internal/provider/resource_apply.go:231-254 | the id is the module path for a local module, else `source:version`; a missing source is the validation error; an id is never empty |
| Orchestrator.TempDirPattern | internal/provider/resource_apply.go:245 | the temp directory's name hint contains no `/` and keeps every other character of the source |
| Orchestrator.TempDirIsChildOfRoot | internal/provider/resource_apply.go:245 | the temp directory is a direct child of the temp root whose name starts with the hint |
| Orchestrator.MergedCreds | internal/provider/resource_apply.go:319-320 | the credentials used are the resource's followed by the provider's |
| Orchestrator.MergedFiles | internal/provider/resource_apply.go:336-337 | the extra files staged are the resource's followed by the provider's |
| Orchestrator.ClientConfiguration | internal/provider/resource_apply.go:295-324 | backend config and environment are set exactly when given; variables go only as `TF_VAR_` environment or only as variables, carrying the same values; credentials are set exactly when the merged list is non-empty |
| Orchestrator.InstallModuleDirs | internal/provider/resource_apply.go:326-334 | after the fetch every directory on the way to a fetched file exists, and every directory it adds lies inside the working directory |
| Orchestrator.InstallModuleStaysInside | internal/provider/resource_apply.go:326-334 | the fetched module lands inside the temp directory, each file at its relative path, no directory disappears, and nothing outside changes |
| Orchestrator.FetchedSubdirectoryConflicts | internal/provider/resource_apply.go:176-180 | for any fetched module, a non-forced extra file named like a directory on the path of one of its files is reported as a conflict naming that path, and nothing is written, because stat finds the directory |
| Orchestrator.ApplyRun | internal/provider/resource_apply.go:359-383 | Create succeeds exactly when plan, apply and output succeed; outputs are stored only then; the plan file is gone on every exit and every other file and directory is kept |
| Orchestrator.DestroyRun | internal/provider/resource_apply.go:394-405 | Delete succeeds exactly when destroy does, clearing the id only then and touching no file |
| RunProperties.RunnerCalls | internal/provider/resource_apply.go:359-405 | a runner attempts a prefix of its phases, all of them on success, and schedules the plan file's removal exactly when it plans |
| RunProperties.RunnerStopsAtFailedPhase | internal/provider/resource_apply.go:365-379 | every phase before the last attempted one succeeded; the runner fails exactly when that phase failed, with that phase's labelled error |
| RunProperties.SessionFetchFails | internal/provider/resource_apply.go:326-334 | a failed module fetch is reported after the diagnostic buffer with the error label, before anything is staged or cleaned up |
| RunProperties.SessionStagingFails | internal/provider/resource_apply.go:339-343 | a staging failure is reported after the diagnostic buffer, and the extra-file cleanup still runs |
| RunProperties.SessionInitFails | internal/provider/resource_apply.go:345-349 | an init failure carries the init label, and the extra-file cleanup still runs |
| RunProperties.SessionRunsRunner | internal/provider/resource_apply.go:351-356 | a runner failure carries the runner label; on success the id is set after the runner ran |
| RunProperties.SessionCalls | internal/provider/resource_apply.go:326-356 | a session attempts a prefix of fetch, staging, init and runner phases, all of them on success, and runs exactly the clean-ups those phases registered |
| RunProperties.RunStopsBeforeWorkDir | internal/provider/resource_apply.go:227-241 | a missing binary or a missing source ends the run at once, traced as the failed binary lookup or the failed source check: nothing is configured, changed or cleaned up |
| RunProperties.RunTempDirFails | internal/provider/resource_apply.go:244-248 | a temp directory that cannot be created ends the run with that error and no clean-up, after the binary lookup and the source check |
| RunProperties.RunLocal | internal/provider/resource_apply.go:251-254 | a local module is worked on in place, with the module path as id |
| RunProperties.RunRemote | internal/provider/resource_apply.go:242-250 | a fetched module is worked on in a new temp directory with `source:version` as id, and the directory is removed after everything else |
| RunProperties.CallsFollowFixedOrder | internal/provider/resource_apply.go:225-356 | the phases attempted are a prefix of binary, source check, temp directory, fetch, staging, init, runner (a local module skips the source check, the temp directory and the fetch), and a successful run attempted them all |
| RunProperties.SessionStopsAtFailedPhase | internal/provider/resource_apply.go:326-356 | every phase a session attempted before its last one passed, judged phase by phase from the fetch, staging, init and runner outcomes, and the session fails exactly when that last phase failed |
| RunProperties.RunStopsAtFailedPhase | internal/provider/resource_apply.go:225-356 | every phase a run attempted before its last one passed, and the run fails exactly when that last phase failed: the first failure stops the run |
| RunProperties.DeferredRunInReverseOrder | internal/provider/resource_apply.go:249 | the clean-ups that run are exactly those registered before the run stopped, last registered first: plan file, extra files, temp directory |
| RunEffects.SessionState | internal/provider/resource_apply.go:351-356 | a failed session keeps the prior state; a successful Create stores the id and the outputs; a successful Delete stores the id |
| RunEffects.StateChangesOnlyOnSuccess | internal/provider/resource_apply.go:225-356 | any failure leaves id and outputs as they were; success stores the computed identity, and for Create the outputs read |
| RunEffects.DeleteLeavesIdSet | internal/provider/resource_apply.go:355 | a successful Delete ends with the computed identity as its id, not the empty id its runner set, and keeps the outputs |
| RunEffects.RunnerStaysInside | internal/provider/resource_apply.go:359-405 | a runner changes nothing outside its working directory |
| RunEffects.SessionStaysInside | internal/provider/resource_apply.go:326-356 | a session changes nothing outside its working directory |
| RunEffects.LocalRunStaysInModuleDir | internal/provider/resource_apply.go:251-356 | a run on a local module changes nothing outside the module directory |
| RunEffects.RemoteRunLeavesNoTrace | internal/provider/resource_apply.go:245-249 | a run in a temp directory ends with the filesystem it started with, less anything at that path; a fresh path leaves it unchanged |
| RunEffects.SessionRemovesPlanFile | internal/provider/resource_apply.go:363-364 | once planning started, the plan file is gone when the session ends |
| RunEffects.LocalPlanFileRemoved | internal/provider/resource_apply.go:363-364 | after a run on a local module that planned, no plan file is left in the module directory |
| RunEffects.SessionRemovesMarked | internal/provider/resource_apply.go:339 | once staging started, no cleanup-marked target is left when the session ends, whether staging, init or the runner failed or all succeeded |
| RunEffects.LocalRunRemovesMarked | internal/provider/resource_apply.go:339 | after a run on a local module that reached staging, no cleanup-marked extra file is left in the module directory, however the run ended |
| RunEffects.ConflictCleanupRemovesMarked | internal/provider/resource_apply.go:339-343 | a staging conflict fails the run, keeps the state, and leaves the module directory less exactly the cleanup-marked targets |
| RunEffects.ConflictDeletesModuleFile | internal/provider/resource_apply.go:339-343 | a cleanup-marked extra file that conflicts with the module's `main.tf` fails Create with the conflict message and deletes that `main.tf` |
| RunEffects.ConfiguredOnceWorkDirKnown | internal/provider/resource_apply.go:295-324 | the client is configured exactly when the binary, the identity and the working directory were obtained |
| RunEffects.CreatePassesVarsAsVariables | internal/provider/resource_apply.go:359-360 | Create passes module variables as Terraform variables with their values rendered, never as environment |
| RunEffects.DeletePassesVarsThroughEnv | internal/provider/resource_apply.go:394-395 | Delete passes module variables only as `TF_VAR_` environment, carrying the same values |

## Left out

- The log capture (the pipes, the two scanner goroutines and the context cancellation) is concurrency. The diagnostic buffer is one input string, and how lines are appended to it is not modelled.
- The binary lookup on PATH and the Terraform download are external I/O. Whether the binary is on PATH and the download's outcome are inputs; only the choice between them is modelled.
- The Terraform client library is not part of this model. Its GetModule, Init, Plan, ApplyWithPlan, Output and Destroy are inputs: an outcome each, plus the fetched files for GetModule.
- What init, plan, apply and destroy do to the filesystem is not modelled. Only the module fetch's files and the plan file's removal are.
- The write pass's `MkdirAll` of the target's grandparent is not modelled. Whether each target's write fails, and what a failed write leaves in the target, are inputs; no parent directories are created.
- `filepath.Join` and `filepath.FromSlash` are plain concatenation with a `/`. `.` and `..` are not cleaned, so in the model every joined path lies inside its directory. In the program an extra file with a path such as `../x` is written, and removed by cleanup, outside the module directory, and survives the temp directory's removal. The containment members below hold only for paths without `..` components:
- Filesystem.JoinIsUnder: in the program a joined path with a `..` component can lie outside the directory.
- Filesystem.JoinInjective: paths differing only by `.` or `..` components, repeated or trailing `/`, or an empty path name the same file in the program (an empty path names the directory itself), so two such specs write one file and a spec `./x` conflicts with a module's `x` there.
- FileStaging.WriteAllStaysInside: a `..` extra-file path is written outside the module directory in the program.
- FileStaging.WriteFilesStaysInside: a `..` extra-file path is written outside the module directory in the program.
- FileStaging.CleanupStaysInside: a cleanup-marked `..` extra-file path is removed outside the module directory in the program.
- RunEffects.SessionStaysInside: staging and cleanup of a `..` extra-file path reach outside the working directory in the program.
- RunEffects.LocalRunStaysInModuleDir: staging and cleanup of a `..` extra-file path reach outside the module directory in the program.
- RunEffects.RemoteRunLeavesNoTrace: a `..` extra file is written outside the temp directory and survives its removal in the program.
- Orchestrator.InstallModuleDirs: the module fetch is given as its files; directories it brings along come from those files' paths, and a module's empty directories are not modelled.
- FileStaging.WriteAllStopsAtFirstFailure: write failures are given per target path, not per write, so a target named by two specs either fails on its first write or on neither; in the program the second write can fail (a full disk, say) after the first succeeded.
- Every removal succeeds in the model. The program ignores the errors of `os.Remove` and `os.RemoveAll`, so a removal that fails leaves its path behind. The model also treats `os.Remove` as removing a file only, not an empty directory at that path. These members rely on removals succeeding:
- FileStaging.CleanupRemovesMarked: a cleanup-marked target whose removal fails stays in the program, and one that names an empty directory is removed there.
- RunEffects.SessionRemovesMarked: a cleanup-marked target whose removal fails stays in the program.
- RunEffects.LocalRunRemovesMarked: a cleanup-marked target whose removal fails stays in the module directory in the program.
- RunEffects.ConflictCleanupRemovesMarked: a cleanup-marked target whose removal fails stays in the program.
- RunEffects.ConflictDeletesModuleFile: the module's `main.tf` stays in the program if its removal fails.
- RunEffects.SessionRemovesPlanFile: the plan file stays in the program if its removal fails.
- RunEffects.LocalPlanFileRemoved: the plan file stays in the module directory in the program if its removal fails.
- RunEffects.RemoteRunLeavesNoTrace: the temp directory, or part of it, stays in the program if its removal fails.
- The working directory the client reports (`cli.Dir()`, used for staging, cleanup and the plan file) is taken to be the directory the client was created with.
- File permissions (`0777`, `0660`) are not modelled.
- `ioutil.TempDir`'s handling of a `*` in the name hint is not modelled, nor how the random part is chosen. The temp root and the random part are inputs.
- The schema declarations, the `tflog` calls and the no-op Read have no behaviour to model.
- `fmt.Sprint` is modelled only for the scalar values a map attribute can carry (string, bool, integer). Floats and nested values are left out.
- Update is Create, as in the code; no separate properties are stated for it.
- The acceptance tests run the provider against a real Terraform binary and registry; they are not modelled. Only their helper that writes one module file (`prepareLocalTestModule`) has a counterpart, `FileStaging.WriteOneFileIntoFreshDir`.

=== FILE: encoding.dfy ===
/** Go's `[]byte(s)` conversion: the UTF-8 encoding of a string, together with
    a decoder that serves as its inverse. */
module Encoding {
  import opened Wrappers

  type byte = x: int | 0 <= x < 0x100

  /** The UTF-8 form of one Unicode scalar value (1 to 4 bytes). */
  function EncodeRune(c: char): (r: seq<byte>)
    ensures 1 <= |r| <= 4
    ensures |r| == RuneLength(r[0])
    ensures forall i :: 1 <= i < |r| ==> IsContinuation(r[i])
  {
    var n := c as int;
    if n < 0x80 then [n]
    else if n < 0x800 then [0xC0 + n / 64, 0x80 + n % 64]
    else if n < 0x10000 then [0xE0 + n / 4096, 0x80 + (n / 64) % 64, 0x80 + n % 64]
    else [0xF0 + n / 262144, 0x80 + (n / 4096) % 64, 0x80 + (n / 64) % 64, 0x80 + n % 64]
  }

  /** The UTF-8 form of a whole string: the bytes of each rune in order. */
  function Encode(s: string): (r: seq<byte>)
    ensures |s| <= |r| <= 4 * |s|
    ensures (forall i :: 0 <= i < |s| ==> s[i] as int < 0x80) ==> |r| == |s|
  {
    if s == [] then [] else EncodeRune(s[0]) + Encode(s[1..])
  }

  predicate IsContinuation(b: byte) {
    0x80 <= b < 0xC0
  }

  /** How many bytes a rune starting with `lead` occupies; 0 when `lead`
      cannot start a rune. */
  function RuneLength(lead: byte): nat {
    if lead < 0x80 then 1
    else if lead < 0xC0 then 0
    else if lead < 0xE0 then 2
    else if lead < 0xF0 then 3
    else if lead < 0xF8 then 4
    else 0
  }

  /** The code point spelled by the first `RuneLength(b[0])` bytes of `b`. */
  function CodePoint(b: seq<byte>): int
    requires 1 <= |b| && |b| >= RuneLength(b[0]) >= 1
  {
    var b0 := b[0] as int;
    match RuneLength(b[0])
    case 1 => b0
    case 2 => (b0 - 0xC0) * 64 + (b[1] as int - 0x80)
    case 3 => ((b0 - 0xE0) * 64 + (b[1] as int - 0x80)) * 64 + (b[2] as int - 0x80)
    case 4 => (((b0 - 0xF0) * 64 + (b[1] as int - 0x80)) * 64 + (b[2] as int - 0x80)) * 64 + (b[3] as int - 0x80)
  }

  predicate IsScalar(n: int) {
    0 <= n < 0xD800 || 0xE000 <= n < 0x11_0000
  }

  /** Decodes a byte sequence rune by rune; `None` when a rune is truncated,
      has a bad lead or continuation byte, or names no scalar value. */
  function Decode(b: seq<byte>): Option<string>
    decreases |b|
  {
    if b == [] then Some([])
    else
      var n := RuneLength(b[0]);
      if n == 0 || |b| < n then None
      else if exists i :: 1 <= i < n && !IsContinuation(b[i]) then None
      else
        var cp := CodePoint(b);
        if !IsScalar(cp) then None
        else match Decode(b[n..])
          case None => None
          case Some(rest) => Some([cp as char] + rest)
  }

  lemma DivDecompose(n: nat)
    ensures n == (n / 64) * 64 + n % 64
    ensures n / 64 / 64 == n / 4096
    ensures n / 4096 / 64 == n / 262144
  {
  }

  lemma {:induction false} CodePointOfRune(c: char)
    ensures CodePoint(EncodeRune(c)) == c as int
  {
    var n := c as int;
    var r := EncodeRune(c);
    DivDecompose(n);
    DivDecompose(n / 64);
    DivDecompose(n / 4096);
    if n < 0x80 {
    } else if n < 0x800 {
      assert CodePoint(r) == (n / 64) * 64 + n % 64;
    } else if n < 0x10000 {
      assert CodePoint(r) == ((n / 4096) * 64 + (n / 64) % 64) * 64 + n % 64;
    } else {
      assert CodePoint(r) == (((n / 262144) * 64 + (n / 4096) % 64) * 64 + (n / 64) % 64) * 64 + n % 64;
    }
  }

  /** Decoding undoes encoding, so `Encode` is injective: distinct strings
      never produce the same file content. */
  lemma {:induction false} DecodeEncode(s: string)
    ensures Decode(Encode(s)) == Some(s)
  {
    if s != [] {
      assert Encode(s) == EncodeRune(s[0]) + Encode(s[1..]);
      DecodeEncode(s[1..]);
      DecodeRuneFirst(s[0], Encode(s[1..]));
      assert [s[0]] + s[1..] == s;
    }
  }

  /** Decoding reads back the rune a byte sequence starts with and goes on
      with the rest. */
  lemma DecodeRuneFirst(c: char, rest: seq<byte>)
    ensures Decode(EncodeRune(c) + rest) ==
      match Decode(rest)
      case None => None
      case Some(t) => Some([c] + t)
  {
    var r := EncodeRune(c);
    var b := r + rest;
    assert b[0] == r[0];
    assert b[|r|..] == rest;
    assert forall i :: 1 <= i < |r| ==> b[i] == r[i];
    CodePointOfRune(c);
    assert CodePoint(b) == CodePoint(r);
    assert IsScalar(c as int);
  }

  lemma EncodeInjective(s: string, t: string)
    requires Encode(s) == Encode(t)
    ensures s == t
  {
    DecodeEncode(s);
    DecodeEncode(t);
  }
}

=== FILE: filestaging.dfy ===
/** Staging of extra files into the module directory (`writeFiles`) and
    their removal afterwards (`cleanupFiles`). */
module FileStaging {
  import opened Wrappers
  import opened Filesystem
  import opened Provider

  /** How the write of one target fails: the error text, and what the target
      holds afterwards. `None` when the failure leaves it as it was (the
      directory creation or the open failed); otherwise the bytes left
      behind, since `ioutil.WriteFile` truncates the file before writing and
      a failed write or close can leave it empty or partly written. */
  datatype WriteFault = WriteFault(error: string, leftover: Option<Contents>)

  /** The failures the filesystem produces, as inputs: paths whose stat fails
      with an error other than not-exist, and the targets whose write fails. */
  datatype Faults = Faults(statFails: set<Path>, writeFails: map<Path, WriteFault>)

  /** The effect of a staging step: the error it reports and the resulting filesystem. */
  datatype Staged = Staged(outcome: Outcome, fs: Fs)

  function ConflictMessage(path: string): string {
    "cannot write extra file (" + path + ") because target module has a file with the same name already. Use 'force' to overwrite file"
  }

  /** Where a file spec lands in directory `dir`. */
  function Target(dir: Path, f: ExtraFile): Path {
    Join(dir, f.path)
  }

  function Targets(dir: Path, files: seq<ExtraFile>): set<Path> {
    set f | f in files :: Target(dir, f)
  }

  function CleanupTargets(dir: Path, files: seq<ExtraFile>): set<Path> {
    set f | f in files && f.cleanup :: Target(dir, f)
  }

  /** A non-forced spec conflicts unless stat reports its target as absent;
      a stat failure counts as a conflict too. */
  predicate Conflicts(fs: Fs, statFails: set<Path>, dir: Path, f: ExtraFile) {
    !f.force && Stat(fs, statFails, Target(dir, f)) != NotFound
  }

  /** No later spec in `files` names the same path as spec `i`. */
  ghost predicate LastFor(files: seq<ExtraFile>, i: int)
    requires 0 <= i < |files|
  {
    forall j :: i < j < |files| ==> files[j].path != files[i].path
  }

  /** The pre-check pass: the first spec that conflicts, if any. It only
      stats, so every spec is judged against the filesystem as it was. */
  function FirstConflict(fs: Fs, statFails: set<Path>, dir: Path, files: seq<ExtraFile>): (r: Option<nat>)
    ensures r.Some? ==>
      && r.value < |files|
      && Conflicts(fs, statFails, dir, files[r.value])
      && forall j :: 0 <= j < r.value ==> !Conflicts(fs, statFails, dir, files[j])
    ensures r.None? <==> forall j :: 0 <= j < |files| ==> !Conflicts(fs, statFails, dir, files[j])
  {
    if files == [] then None
    else if Conflicts(fs, statFails, dir, files[0]) then Some(0)
    else match FirstConflict(fs, statFails, dir, files[1..])
      case None => None
      case Some(i) => Some(i + 1)
  }

  /** What a failed write leaves behind at its target. */
  function AfterFault(fs: Fs, p: Path, fault: WriteFault): Fs {
    match fault.leftover
    case None => fs
    case Some(left) => WriteFile(fs, p, left)
  }

  /** The write pass: every spec in order; the first failed write ends the
      pass with that error, and what was written before it stays written. */
  function WriteAll(fs: Fs, writeFails: map<Path, WriteFault>, dir: Path, files: seq<ExtraFile>): (r: Staged)
    ensures r.fs.dirs == fs.dirs
    ensures r.outcome.Pass? <==> forall i :: 0 <= i < |files| ==> Target(dir, files[i]) !in writeFails
    decreases |files|
  {
    if files == [] then Staged(Pass, fs)
    else
      var p := Target(dir, files[0]);
      if p in writeFails then Staged(Fail(writeFails[p].error), AfterFault(fs, p, writeFails[p]))
      else
        var r := WriteAll(WriteFile(fs, p, files[0].content), writeFails, dir, files[1..]);
        assert forall i :: 1 <= i < |files| ==> files[i] == files[1..][i - 1];
        r
  }

  /** `writeFiles`: the pre-check over the non-forced specs, then the write pass. */
  function WriteFiles(fs: Fs, faults: Faults, dir: Path, files: seq<ExtraFile>): Staged {
    match FirstConflict(fs, faults.statFails, dir, files)
    case Some(i) => Staged(Fail(ConflictMessage(files[i].path)), fs)
    case None => WriteAll(fs, faults.writeFails, dir, files)
  }

  /** The pre-check runs to completion before anything is written: the
      first conflicting spec, in order, is the one reported, and the
      filesystem is left as it was. */
  lemma WriteFilesReportsFirstConflict(fs: Fs, faults: Faults, dir: Path, files: seq<ExtraFile>, i: nat)
    requires i < |files| && Conflicts(fs, faults.statFails, dir, files[i])
    requires forall j :: 0 <= j < i ==> !Conflicts(fs, faults.statFails, dir, files[j])
    ensures WriteFiles(fs, faults, dir, files) == Staged(Fail(ConflictMessage(files[i].path)), fs)
  {
    var first := FirstConflict(fs, faults.statFails, dir, files);
    assert first.Some?;
    assert !(first.value < i);
    assert !(i < first.value);
  }

  /** Without a conflict the write pass runs over all specs. */
  lemma WriteFilesWritesWhenClear(fs: Fs, faults: Faults, dir: Path, files: seq<ExtraFile>)
    requires forall i :: 0 <= i < |files| ==> !Conflicts(fs, faults.statFails, dir, files[i])
    ensures WriteFiles(fs, faults, dir, files) == WriteAll(fs, faults.writeFails, dir, files)
  {
  }

  /** `cleanupFiles`: removes the target of every cleanup-marked spec; it
      reports no error. */
  function CleanupFiles(fs: Fs, dir: Path, files: seq<ExtraFile>): Fs
    decreases |files|
  {
    if files == [] then fs
    else
      var next := if files[0].cleanup then Remove(fs, Target(dir, files[0])) else fs;
      CleanupFiles(next, dir, files[1..])
  }

  /** Cleanup removes exactly the targets of the cleanup-marked specs and
      leaves every other file and every directory as it was. */
  lemma {:induction false} CleanupRemovesMarked(fs: Fs, dir: Path, files: seq<ExtraFile>)
    ensures CleanupFiles(fs, dir, files).dirs == fs.dirs
    ensures CleanupFiles(fs, dir, files).files.Keys == fs.files.Keys - CleanupTargets(dir, files)
    ensures forall p :: p in CleanupFiles(fs, dir, files).files ==> CleanupFiles(fs, dir, files).files[p] == fs.files[p]
    decreases |files|
  {
    if files != [] {
      var next := if files[0].cleanup then Remove(fs, Target(dir, files[0])) else fs;
      CleanupRemovesMarked(next, dir, files[1..]);
      assert CleanupTargets(dir, files) ==
        CleanupTargets(dir, files[1..]) + (if files[0].cleanup then {Target(dir, files[0])} else {}) by {
        assert forall f :: f in files <==> f == files[0] || f in files[1..];
      }
    }
  }

  /** An all-or-nothing pre-check: any conflict leaves the filesystem as it
      was, and forced specs never conflict. */
  lemma ConflictWritesNothing(fs: Fs, faults: Faults, dir: Path, files: seq<ExtraFile>, k: nat)
    requires k < |files| && Conflicts(fs, faults.statFails, dir, files[k])
    ensures !files[k].force
    ensures WriteFiles(fs, faults, dir, files).outcome.Fail?
    ensures WriteFiles(fs, faults, dir, files).fs == fs
  {
    var i := FirstConflict(fs, faults.statFails, dir, files).value;
    assert WriteFiles(fs, faults, dir, files) == Staged(Fail(ConflictMessage(files[i].path)), fs);
  }

  /** The write pass with no failing write, as a precondition. */
  predicate NoWriteFails(writeFails: map<Path, WriteFault>, dir: Path, files: seq<ExtraFile>) {
    forall i :: 0 <= i < |files| ==> Target(dir, files[i]) !in writeFails
  }

  lemma TargetsOfCons(dir: Path, files: seq<ExtraFile>)
    requires files != []
    ensures Targets(dir, files) == Targets(dir, files[1..]) + {Target(dir, files[0])}
  {
    assert forall f :: f in files <==> f == files[0] || f in files[1..];
  }

  /** One step of a write pass that does not fail. */
  lemma WriteAllStep(fs: Fs, writeFails: map<Path, WriteFault>, dir: Path, files: seq<ExtraFile>)
    requires files != [] && NoWriteFails(writeFails, dir, files)
    ensures NoWriteFails(writeFails, dir, files[1..])
    ensures WriteAll(fs, writeFails, dir, files) ==
      WriteAll(WriteFile(fs, Target(dir, files[0]), files[0].content), writeFails, dir, files[1..])
  {
    assert Target(dir, files[0]) !in writeFails;
    assert forall i :: 0 <= i < |files[1..]| ==> files[1..][i] == files[i + 1];
  }

  /** On success the files present are the old ones plus every target. */
  lemma {:induction false} WriteAllAddsTargets(fs: Fs, writeFails: map<Path, WriteFault>, dir: Path, files: seq<ExtraFile>)
    requires NoWriteFails(writeFails, dir, files)
    ensures WriteAll(fs, writeFails, dir, files).fs.files.Keys == fs.files.Keys + Targets(dir, files)
    decreases |files|
  {
    if files == [] {
      assert Targets(dir, files) == {};
    } else {
      var fs1 := WriteFile(fs, Target(dir, files[0]), files[0].content);
      WriteAllStep(fs, writeFails, dir, files);
      WriteAllAddsTargets(fs1, writeFails, dir, files[1..]);
      TargetsOfCons(dir, files);
    }
  }

  /** On success a file no spec targets keeps its content. */
  lemma {:induction false} WriteAllKeepsOthers(fs: Fs, writeFails: map<Path, WriteFault>, dir: Path,
                                               files: seq<ExtraFile>, p: Path)
    requires NoWriteFails(writeFails, dir, files)
    requires p in fs.files && p !in Targets(dir, files)
    ensures p in WriteAll(fs, writeFails, dir, files).fs.files
    ensures WriteAll(fs, writeFails, dir, files).fs.files[p] == fs.files[p]
    decreases |files|
  {
    if files != [] {
      var fs1 := WriteFile(fs, Target(dir, files[0]), files[0].content);
      WriteAllStep(fs, writeFails, dir, files);
      TargetsOfCons(dir, files);
      WriteAllKeepsOthers(fs1, writeFails, dir, files[1..], p);
    }
  }

  /** On success a target holds the content of the last spec naming it. */
  lemma {:induction false} WriteAllLastWriterWins(fs: Fs, writeFails: map<Path, WriteFault>, dir: Path,
                                                  files: seq<ExtraFile>, i: nat)
    requires NoWriteFails(writeFails, dir, files)
    requires i < |files| && LastFor(files, i)
    ensures Target(dir, files[i]) in WriteAll(fs, writeFails, dir, files).fs.files
    ensures WriteAll(fs, writeFails, dir, files).fs.files[Target(dir, files[i])] == files[i].content
    decreases |files|
  {
    var p := Target(dir, files[0]);
    var fs1 := WriteFile(fs, p, files[0].content);
    var rest := files[1..];
    WriteAllStep(fs, writeFails, dir, files);
    if i == 0 {
      forall q | q in Targets(dir, rest)
        ensures q != p
      {
        var f :| f in rest && q == Target(dir, f);
        var j :| 0 <= j < |rest| && rest[j] == f;
        assert files[j + 1].path != files[0].path;
        JoinInjective(dir, f.path, files[0].path);
      }
      WriteAllKeepsOthers(fs1, writeFails, dir, rest, p);
    } else {
      assert rest[i - 1] == files[i];
      assert LastFor(rest, i - 1);
      WriteAllLastWriterWins(fs1, writeFails, dir, rest, i - 1);
    }
  }

  /** Writing stops at the first failing spec: the result is that spec's
      error over exactly the writes of the specs before it (no rollback),
      with the failed target holding whatever the failure left in it. */
  lemma {:induction false} WriteAllStopsAtFirstFailure(fs: Fs, writeFails: map<Path, WriteFault>, dir: Path,
                                                      files: seq<ExtraFile>, k: nat)
    requires k < |files| && Target(dir, files[k]) in writeFails
    requires forall j :: 0 <= j < k ==> Target(dir, files[j]) !in writeFails
    ensures var fault := writeFails[Target(dir, files[k])];
      WriteAll(fs, writeFails, dir, files) ==
        Staged(Fail(fault.error), AfterFault(WriteAll(fs, writeFails, dir, files[..k]).fs, Target(dir, files[k]), fault))
    decreases k
  {
    if k == 0 {
      assert files[..k] == [];
    } else {
      var p := Target(dir, files[0]);
      var fs1 := WriteFile(fs, p, files[0].content);
      assert files[1..][k - 1] == files[k];
      WriteAllStopsAtFirstFailure(fs1, writeFails, dir, files[1..], k - 1);
      assert files[..k][0] == files[0];
      assert files[..k][1..] == files[1..][..k - 1];
    }
  }

  /** Two non-forced specs for the same absent path both pass the pre-check,
      because it stats before writing; the later one's content ends up there. */
  lemma RepeatedAbsentPathLastWins(fs: Fs, dir: Path, a: ExtraFile, b: ExtraFile)
    requires a.path == b.path && !a.force && !b.force
    requires Target(dir, a) !in fs.files && Target(dir, a) !in fs.dirs
    ensures var r := WriteFiles(fs, Faults({}, map[]), dir, [a, b]);
      r.outcome == Pass && Target(dir, a) in r.fs.files && r.fs.files[Target(dir, a)] == b.content
  {
    var files := [a, b];
    assert !Conflicts(fs, {}, dir, files[0]) && !Conflicts(fs, {}, dir, files[1]);
    WriteFilesWritesWhenClear(fs, Faults({}, map[]), dir, files);
    WriteAllLastWriterWins(fs, map[], dir, files, 1);
  }

  /** Writing one non-forced file into a directory that lacks it succeeds. */
  lemma WriteOneFileIntoFreshDir(fs: Fs, dir: Path, f: ExtraFile)
    requires dir in fs.dirs
    requires Target(dir, f) !in fs.files && Target(dir, f) !in fs.dirs
    ensures WriteFiles(fs, Faults({}, map[]), dir, [f]) ==
      Staged(Pass, Fs(fs.dirs, fs.files[Target(dir, f) := f.content]))
  {
    var files := [f];
    assert !Conflicts(fs, {}, dir, files[0]);
    var p := Target(dir, f);
    assert WriteAll(fs, map[], dir, files) == WriteAll(WriteFile(fs, p, f.content), map[], dir, files[1..]);
    assert files[1..] == [];
  }

  /** Staging and cleanup touch nothing outside the working directory. */
  lemma {:induction false} WriteAllStaysInside(fs: Fs, writeFails: map<Path, WriteFault>, dir: Path, files: seq<ExtraFile>)
    ensures SameOutside(fs, WriteAll(fs, writeFails, dir, files).fs, dir)
    decreases |files|
  {
    if files != [] {
      var p := Target(dir, files[0]);
      JoinIsUnder(dir, files[0].path);
      if p !in writeFails {
        var fs1 := WriteFile(fs, p, files[0].content);
        WriteAllStaysInside(fs1, writeFails, dir, files[1..]);
        SameOutsideTransitive(fs, fs1, WriteAll(fs, writeFails, dir, files).fs, dir);
      }
    }
  }

  lemma WriteFilesStaysInside(fs: Fs, faults: Faults, dir: Path, files: seq<ExtraFile>)
    ensures SameOutside(fs, WriteFiles(fs, faults, dir, files).fs, dir)
  {
    WriteAllStaysInside(fs, faults.writeFails, dir, files);
  }

  lemma CleanupStaysInside(fs: Fs, dir: Path, files: seq<ExtraFile>)
    ensures SameOutside(fs, CleanupFiles(fs, dir, files), dir)
  {
    CleanupRemovesMarked(fs, dir, files);
    forall p | p in CleanupTargets(dir, files)
      ensures Under(p, dir)
    {
      var f :| f in files && f.cleanup && p == Target(dir, f);
      JoinIsUnder(dir, f.path);
    }
  }
}

=== FILE: filesystem.dfy ===
/** An abstract filesystem: the set of existing directories and a map from
    full path to file contents. Only the operations the provider performs
    are modelled: stat, write, remove and recursive remove. */
module Filesystem {
  import opened Encoding

  type Path = string
  type Contents = seq<byte>

  datatype Fs = Fs(dirs: set<Path>, files: map<Path, Contents>)

  /** `filepath.Join(dir, filepath.FromSlash(rel))`, taken as plain
      concatenation with a separator (no cleaning of `.` or `..`). */
  function Join(dir: Path, rel: Path): Path {
    dir + "/" + rel
  }

  /** `p` lies strictly inside directory `dir`. */
  predicate Under(p: Path, dir: Path) {
    |dir| + 1 <= |p| && p[..|dir| + 1] == dir + "/"
  }

  lemma JoinIsUnder(dir: Path, rel: Path)
    ensures Under(Join(dir, rel), dir)
  {
    assert Join(dir, rel)[..|dir| + 1] == dir + "/";
  }

  /** Within one directory, distinct relative paths name distinct files. */
  lemma JoinInjective(dir: Path, a: Path, b: Path)
    ensures Join(dir, a) == Join(dir, b) <==> a == b
  {
    if Join(dir, a) == Join(dir, b) {
      assert a == Join(dir, a)[|dir| + 1..];
      assert b == Join(dir, b)[|dir| + 1..];
    }
  }

  /** The relative path can be read back from any path joined onto `dir`. */
  lemma JoinRelativeEverywhere(dir: Path)
    ensures forall rel :: Join(dir, rel)[|dir| + 1..] == rel
  {
  }

  /** What `os.Stat` reports: a file or directory is there, nothing is there
      (`os.ErrNotExist`), or the call failed for another reason. */
  datatype StatResult = Found | NotFound | StatError

  /** `os.Stat(p)`; `statFails` are the paths whose stat fails with an error
      other than not-exist (a permission problem, say). */
  function Stat(fs: Fs, statFails: set<Path>, p: Path): (r: StatResult)
    ensures r == NotFound <==> p !in statFails && p !in fs.files && p !in fs.dirs
  {
    if p in statFails then StatError
    else if p in fs.files || p in fs.dirs then Found
    else NotFound
  }

  /** `ioutil.WriteFile`: creates or overwrites one file. */
  function WriteFile(fs: Fs, p: Path, data: Contents): (r: Fs)
    ensures r.dirs == fs.dirs
    ensures r.files.Keys == fs.files.Keys + {p} && r.files[p] == data
    ensures forall k :: k in fs.files && k != p ==> r.files[k] == fs.files[k]
  {
    fs.(files := fs.files[p := data])
  }

  /** `os.Remove` of a file; removing a missing file changes nothing. */
  function Remove(fs: Fs, p: Path): (r: Fs)
    ensures r.dirs == fs.dirs
    ensures r.files.Keys == fs.files.Keys - {p}
    ensures forall k :: k in r.files ==> r.files[k] == fs.files[k]
  {
    fs.(files := fs.files - {p})
  }

  /** `os.RemoveAll(dir)`: the directory and everything below it disappear,
      everything else stays. */
  function RemoveAll(fs: Fs, dir: Path): (r: Fs)
    ensures dir !in r.dirs
    ensures forall p :: p in r.files ==> !Under(p, dir)
    ensures forall p :: p in r.dirs ==> !Under(p, dir)
    ensures forall p :: p in fs.files && !Under(p, dir) ==> p in r.files && r.files[p] == fs.files[p]
    ensures forall p :: p in fs.dirs && p != dir && !Under(p, dir) ==> p in r.dirs
  {
    Fs(set d | d in fs.dirs && d != dir && !Under(d, dir),
       map p | p in fs.files && !Under(p, dir) :: fs.files[p])
  }

  /** `a` and `b` agree on everything outside directory `dir`. */
  ghost predicate SameOutside(a: Fs, b: Fs, dir: Path) {
    && (forall p :: !Under(p, dir) ==> (p in a.files <==> p in b.files))
    && (forall p :: p in a.files && !Under(p, dir) ==> a.files[p] == b.files[p])
    && (forall d :: d != dir && !Under(d, dir) ==> (d in a.dirs <==> d in b.dirs))
  }

  /** Adding files and directories that all lie inside `dir` changes
      nothing outside it. */
  lemma AddInsideStaysInside(fs: Fs, added: map<Path, Contents>, newDirs: set<Path>, dir: Path)
    requires forall p :: p in added ==> Under(p, dir)
    requires forall d :: d in newDirs ==> Under(d, dir)
    ensures SameOutside(fs, Fs(fs.dirs + newDirs, fs.files + added), dir)
  {
  }

  lemma SameOutsideTransitive(a: Fs, b: Fs, c: Fs, dir: Path)
    requires SameOutside(a, b, dir) && SameOutside(b, c, dir)
    ensures SameOutside(a, c, dir)
  {
  }

  /** Nothing exists at or below `dir`. */
  predicate Fresh(fs: Fs, dir: Path) {
    && dir !in fs.dirs
    && (forall p :: p in fs.files ==> !Under(p, dir))
    && (forall d :: d in fs.dirs ==> !Under(d, dir))
  }

  /** Removing a directory that is not there changes nothing. */
  lemma RemoveAllOfFresh(fs: Fs, dir: Path)
    requires Fresh(fs, dir)
    ensures RemoveAll(fs, dir) == fs
  {
    assert RemoveAll(fs, dir).dirs == fs.dirs;
    assert RemoveAll(fs, dir).files == fs.files;
  }

  /** Whatever happened inside `dir`, removing it leaves the same filesystem. */
  lemma RemoveAllForgetsInside(a: Fs, b: Fs, dir: Path)
    requires SameOutside(a, b, dir)
    ensures RemoveAll(a, dir) == RemoveAll(b, dir)
  {
    var ra := RemoveAll(a, dir);
    var rb := RemoveAll(b, dir);
    assert ra.dirs == rb.dirs;
    assert ra.files.Keys == rb.files.Keys;
  }
}

=== FILE: gotext.dfy ===
/** The pieces of Go's `fmt` and `strings` packages the provider relies on:
    `fmt.Sprint` of a scalar configuration value, `strings.TrimSpace` with
    `unicode.IsSpace`, and `strings.ReplaceAll` of a single character. */
module GoText {
  import opened Wrappers

  /** A scalar value as the plugin SDK hands it over in a map attribute. */
  datatype Value = Str(s: string) | Bool(b: bool) | Int(i: int)

  /** `fmt.Sprint(v)`: strings verbatim, booleans as `true`/`false`,
      integers in decimal with a leading `-` when negative. */
  function Sprint(v: Value): string {
    match v
    case Str(s) => s
    case Bool(b) => if b then "true" else "false"
    case Int(i) => IntText(i)
  }

  /** An integer in decimal, with a leading `-` when negative. */
  function IntText(i: int): string {
    if i < 0 then "-" + Decimal(-i) else Decimal(i)
  }

  function Digit(d: nat): char
    requires d < 10
  {
    "0123456789"[d]
  }

  /** The decimal digits of `n`, most significant first, without leading zeros. */
  function Decimal(n: nat): (r: string)
    ensures |r| >= 1
    ensures forall i :: 0 <= i < |r| ==> '0' <= r[i] <= '9'
    ensures |r| > 1 ==> r[0] != '0'
  {
    if n < 10 then [Digit(n)] else Decimal(n / 10) + [Digit(n % 10)]
  }

  /** The number a string of decimal digits denotes (each character counts
      for its offset from `'0'`). */
  function ParseDecimal(s: string): int {
    if s == [] then 0 else ParseDecimal(s[..|s| - 1]) * 10 + (s[|s| - 1] as int - '0' as int)
  }

  /** Parsing the rendered digits gives the number back. */
  lemma {:induction false} ParseDecimalRoundTrip(n: nat)
    ensures ParseDecimal(Decimal(n)) == n
  {
    var r := Decimal(n);
    if n < 10 {
      DigitValue(n);
      assert r[..0] == [];
    } else {
      var q, d := n / 10, n % 10;
      ParseDecimalRoundTrip(q);
      DigitValue(d);
      assert r[..|r| - 1] == Decimal(q);
      assert r[|r| - 1] == Digit(d);
      assert ParseDecimal(r) == q * 10 + d;
    }
  }

  lemma DigitValue(d: nat)
    requires d < 10
    ensures Digit(d) as int - '0' as int == d
  {
  }

  /** The integer a rendering of `fmt.Sprint` denotes, the inverse of
      `Sprint` on integers. */
  function ParseInt(s: string): int {
    if s != [] && s[0] == '-' then -ParseDecimal(s[1..]) else ParseDecimal(s)
  }

  /** Rendering an integer and parsing it back gives the integer. */
  lemma SprintIntRoundTrip(i: int)
    ensures ParseInt(Sprint(Int(i))) == i
  {
    if i < 0 {
      var d := Decimal(-i);
      assert Sprint(Int(i)) == "-" + d;
      assert ParseInt("-" + d) == -ParseDecimal(d) by {
        NegativeParses(d);
      }
      ParseDecimalRoundTrip(-i);
    } else {
      var d := Decimal(i);
      assert Sprint(Int(i)) == d;
      assert ParseInt(d) == ParseDecimal(d) by {
        assert d[0] != '-';
      }
      ParseDecimalRoundTrip(i);
    }
  }

  lemma NegativeParses(d: string)
    ensures ParseInt("-" + d) == -ParseDecimal(d)
  {
    assert ("-" + d)[1..] == d;
  }

  /** `unicode.IsSpace`: the ASCII white space characters plus U+0085,
      U+00A0 and the Unicode space separators. */
  predicate IsSpace(c: char) {
    || c == '\t' || c == '\n' || c == '\U{0B}' || c == '\U{0C}' || c == '\r' || c == ' '
    || c == '\U{85}' || c == '\U{A0}' || c == '\U{1680}'
    || ('\U{2000}' <= c <= '\U{200A}')
    || c == '\U{2028}' || c == '\U{2029}' || c == '\U{202F}' || c == '\U{205F}' || c == '\U{3000}'
  }

  predicate AllSpace(s: string) {
    forall i :: 0 <= i < |s| ==> IsSpace(s[i])
  }

  /** `s` neither starts nor ends with white space. */
  predicate Trimmed(s: string) {
    s == [] || (!IsSpace(s[0]) && !IsSpace(s[|s| - 1]))
  }

  /** `s` with its leading white space removed. */
  function TrimLeft(s: string): (r: string)
    ensures IsSuffix(r, s)
    ensures AllSpace(s[..|s| - |r|])
    ensures r == [] || !IsSpace(r[0])
  {
    if s != [] && IsSpace(s[0]) then
      var r := TrimLeft(s[1..]);
      assert s[..|s| - |r|] == [s[0]] + s[1..][..|s[1..]| - |r|];
      r
    else s
  }

  /** `s` with its trailing white space removed. */
  function TrimRight(s: string): (r: string)
    ensures IsPrefix(r, s)
    ensures AllSpace(s[|r|..])
    ensures r == [] || !IsSpace(r[|r| - 1])
  {
    if s != [] && IsSpace(s[|s| - 1]) then
      var r := TrimRight(s[..|s| - 1]);
      assert s[|r|..] == s[..|s| - 1][|r|..] + [s[|s| - 1]];
      r
    else s
  }

  /** `strings.TrimSpace`. */
  function TrimSpace(s: string): (r: string)
    ensures Trimmed(r)
    ensures |r| <= |s|
  {
    TrimLeft(TrimRight(s))
  }

  /** Trimming removes only white space at the two ends: whenever `s` is a
      trimmed core wrapped in white space, `TrimSpace` returns that core. */
  lemma TrimSpaceOfPadded(lead: string, core: string, trail: string)
    requires AllSpace(lead) && AllSpace(trail) && Trimmed(core)
    ensures TrimSpace(lead + core + trail) == core
  {
    if core == [] {
      assert lead + core + trail == lead + trail;
      AllSpaceTrimsToEmpty(lead + trail);
    } else {
      assert (lead + core)[|lead + core| - 1] == core[|core| - 1];
      TrimRightPadded(lead + core, trail);
      TrimLeftPadded(lead, core);
    }
  }

  lemma AllSpaceTrimsToEmpty(s: string)
    requires AllSpace(s)
    ensures TrimSpace(s) == []
  {
  }

  lemma {:induction false} TrimRightPadded(s: string, trail: string)
    requires AllSpace(trail)
    requires s == [] || !IsSpace(s[|s| - 1])
    ensures TrimRight(s + trail) == s
  {
    if trail != [] {
      assert (s + trail)[..|s + trail| - 1] == s + trail[..|trail| - 1];
      TrimRightPadded(s, trail[..|trail| - 1]);
    } else {
      assert s + trail == s;
    }
  }

  lemma {:induction false} TrimLeftPadded(lead: string, s: string)
    requires AllSpace(lead)
    requires s == [] || !IsSpace(s[0])
    ensures TrimLeft(lead + s) == s
  {
    if lead != [] {
      assert (lead + s)[1..] == lead[1..] + s;
      TrimLeftPadded(lead[1..], s);
    } else {
      assert lead + s == s;
    }
  }

  /** Once `a` holds a non-space character, trimming `a + b` trims only `a`. */
  lemma {:induction false} TrimLeftOfConcat(a: string, b: string)
    requires !AllSpace(a)
    ensures TrimLeft(a + b) == TrimLeft(a) + b
  {
    assert (a + b)[0] == a[0];
    if IsSpace(a[0]) {
      assert (a + b)[1..] == a[1..] + b;
      assert !AllSpace(a[1..]) by {
        var i :| 0 <= i < |a| && !IsSpace(a[i]);
        assert a[1..][i - 1] == a[i];
      }
      TrimLeftOfConcat(a[1..], b);
    }
  }

  /** Trimming `s + " " + word`, where `word` starts and ends with a
      non-space character, trims only the front of `s`, and drops `s` and
      the space entirely when `s` is all white space. */
  lemma TrimSpaceBeforeWord(s: string, word: string)
    requires word != [] && !IsSpace(word[0]) && !IsSpace(word[|word| - 1])
    ensures !AllSpace(s) ==> TrimSpace(s + " " + word) == TrimLeft(s) + " " + word
    ensures AllSpace(s) ==> TrimSpace(s + " " + word) == word
  {
    var t := s + " " + word;
    assert t[|t| - 1] == word[|word| - 1];
    NothingToTrimRight(t);
    if AllSpace(s) {
      TrimLeftBlankBeforeWord(s, word);
    } else {
      TrimLeftTextBeforeWord(s, word);
    }
  }

  lemma NothingToTrimRight(t: string)
    requires t != [] && !IsSpace(t[|t| - 1])
    ensures TrimRight(t) == t
  {
  }

  lemma TrimLeftBlankBeforeWord(s: string, word: string)
    requires word != [] && !IsSpace(word[0])
    requires AllSpace(s)
    ensures TrimLeft(s + " " + word) == word
  {
    assert s + " " + word == (s + " ") + word;
    assert AllSpace(s + " ") by {
      forall i | 0 <= i < |s + " "| ensures IsSpace((s + " ")[i]) {
        if i < |s| { assert (s + " ")[i] == s[i]; }
      }
    }
    TrimLeftPadded(s + " ", word);
  }

  lemma TrimLeftTextBeforeWord(s: string, word: string)
    requires !AllSpace(s)
    ensures TrimLeft(s + " " + word) == TrimLeft(s) + " " + word
  {
    var tail := " " + word;
    TrimLeftOfConcat(s, tail);
    calc {
      TrimLeft(s + " " + word);
      { assert s + " " + word == s + tail; }
      TrimLeft(s + tail);
      TrimLeft(s) + tail;
      { assert TrimLeft(s) + tail == TrimLeft(s) + " " + word; }
      TrimLeft(s) + " " + word;
    }
  }

  /** Trimming a string whose tail starts with a non-space character keeps
      that whole tail. */
  lemma {:induction false} TrimLeftKeepsTail(head: string, tail: string)
    requires tail != [] && !IsSpace(tail[0])
    ensures IsSuffix(tail, TrimLeft(head + tail))
  {
    if head != [] {
      assert (head + tail)[0] == head[0];
      assert (head + tail)[1..] == head[1..] + tail;
      TrimLeftKeepsTail(head[1..], tail);
    } else {
      assert head + tail == tail;
    }
  }

  /** `strings.ReplaceAll(s, "/", "_")`. */
  function ReplaceSlashes(s: string): (r: string)
    ensures |r| == |s|
    ensures forall i :: 0 <= i < |s| ==> r[i] == (if s[i] == '/' then '_' else s[i])
  {
    if s == [] then [] else [if s[0] == '/' then '_' else s[0]] + ReplaceSlashes(s[1..])
  }
}

=== FILE: orchestrator.dfy ===
/** The `tfcli_apply` resource: `run`, which resolves the Terraform binary,
    picks the working directory and identity, configures the client, fetches
    the module, stages extra files, initialises and hands over to a runner;
    and the Create, Update and Delete operations built on it.

    Every collaborator outside the model (binary lookup and download, temp
    directory creation, the Terraform client's phases, the captured
    diagnostic stream) is an input, gathered in a `World`. The result is a
    pure function of the request, the provider client, the world, the
    filesystem and the prior resource state. */
module Orchestrator {
  import opened Wrappers
  import opened GoText
  import opened Filesystem
  import opened Provider
  import opened VarCoercion
  import opened FileStaging

  /** The resource's configured attributes. A map attribute is `None` when
      the plugin SDK hands over a nil map. */
  datatype Request = Request(
    terraformVersion: string,
    source: string,
    version: string,
    modulePath: string,
    vars: Option<map<string, Value>>,
    backendConfig: Option<map<string, Value>>,
    envs: Option<map<string, Value>>,
    registry: seq<RegistryBlock>,
    extraFile: seq<FileBlock>)

  /** The resource's persisted state: its id and its `output` attribute. */
  datatype State = State(id: string, output: map<string, string>)

  /** What the collaborators do during one run. `tempDir` is the random part
      of the name the temp directory gets, or the error creating it;
      `fetched` is the files the module fetch places in the working directory,
      keyed by relative path, or the fetch error; `errorBuffer` is the
      diagnostic output captured by the time an error is reported. */
  datatype World = World(
    terraformOnPath: bool,
    download: Outcome,
    tempRoot: Path,
    tempDir: Result<string>,
    fetched: Result<map<Path, Contents>>,
    faults: Faults,
    init: Outcome,
    plan: Outcome,
    apply: Outcome,
    output: Result<map<string, string>>,
    destroy: Outcome,
    errorBuffer: string)

  /** The configuration calls made on the Terraform client, each with its
      argument; `None` when the call is not made. */
  datatype CliConfig = CliConfig(
    backendVars: Option<map<string, string>>,
    env: Option<map<string, string>>,
    appendedEnv: Option<map<string, string>>,
    vars: Option<map<string, string>>,
    registry: Option<seq<RegistryCredential>>)

  /** The operation-specific tail of a run. */
  datatype Runner = ApplyRunner | DestroyRunner

  /** The steps a run attempts, in the order it attempts them. `Validate` is
      the check that a module without a local path names a source. */
  datatype Phase = ResolveBinary | Validate | CreateTempDir | GetModule | StageFiles | Init | Plan | Apply | ReadOutput | Destroy

  /** The deferred clean-up actions, in the order they run. */
  datatype Deferred = RemovePlanFile | CleanupExtraFiles | RemoveTempDir

  datatype RunResult = RunResult(
    diagnostics: Outcome,
    fs: Fs,
    state: State,
    config: Option<CliConfig>,
    calls: seq<Phase>,
    deferred: seq<Deferred>)

  datatype RunnerResult = RunnerResult(outcome: Outcome, fs: Fs, state: State, calls: seq<Phase>, deferred: seq<Deferred>)

  const LookupFailedMessage: string := "cannot find terraform executable in PATH"
  const MissingSourceMessage: string := "please provider either 'source' or 'module_path'"
  const PlanFileName: string := ".plan.json"

  /** The texts `run` puts between the diagnostic buffer and the error: after
      a module fetch or staging failure, after an init failure, and after a
      runner failure. */
  const ErrorLabel: string := "\nError: "
  const InitLabel: string := "\nTerraform init failed: "
  const RunnerLabel: string := "\n Error: "

  const PlanFailed: string := "terraform plan failed: "
  const ApplyFailed: string := "terraform apply failed: "
  const OutputFailed: string := "cannot get Terraform output: "
  const DestroyFailed: string := "terraform destroy failed: "

  /** `terraformBin`: without a configured version the binary is looked up
      on PATH, otherwise that version is downloaded. */
  function TerraformBin(version: string, onPath: bool, download: Outcome): (r: Outcome)
    ensures version == "" ==> (r.Pass? <==> onPath) && (r.Fail? ==> r.error == LookupFailedMessage)
    ensures version != "" ==> r == download
  {
    if version == "" then
      if onPath then Pass else Fail(LookupFailedMessage)
    else download
  }

  /** The resource id: the module path for a local module, otherwise
      `source:version`; a missing source is the validation error. */
  function Identity(req: Request): (r: Result<string>)
    ensures r.Success? <==> req.modulePath != "" || req.source != ""
    ensures r.Success? ==> r.value != ""
    ensures req.modulePath == "" && r.Success? ==>
      && |r.value| == |req.source| + 1 + |req.version|
      && IsPrefix(req.source, r.value) && r.value[|req.source|] == ':' && r.value[|req.source| + 1..] == req.version
    ensures req.modulePath == "" && r.Failure? ==> r.error == MissingSourceMessage
  {
    if req.modulePath != "" then Success(req.modulePath)
    else if req.source == "" then Failure(MissingSourceMessage)
    else
      var id := req.source + ":" + req.version;
      assert id[|req.source| + 1..] == req.version;
      Success(id)
  }

  /** The name hint for the temp directory: the source with every `/`
      replaced by `_`, so the hint is a single path component. */
  function TempDirPattern(source: string): (r: string)
    ensures |r| == |source|
    ensures forall i :: 0 <= i < |r| ==> r[i] != '/'
    ensures forall i :: 0 <= i < |r| && source[i] != '/' ==> r[i] == source[i]
  {
    ReplaceSlashes(source)
  }

  /** The directory `ioutil.TempDir` creates: the hint followed by a random
      part, inside the temp root. */
  function TempDirPath(root: Path, pattern: string, random: string): Path {
    Join(root, pattern + random)
  }

  /** The temp directory is a direct child of the temp root whose name
      starts with the source-derived hint: with a random part free of `/`,
      nothing after the root's separator is another separator. */
  lemma TempDirIsChildOfRoot(root: Path, source: string, random: string)
    requires forall i :: 0 <= i < |random| ==> random[i] != '/'
    ensures var dir := TempDirPath(root, TempDirPattern(source), random);
      && Under(dir, root)
      && IsPrefix(TempDirPattern(source), dir[|root| + 1..])
      && forall i :: |root| + 1 <= i < |dir| ==> dir[i] != '/'
  {
    var pattern := TempDirPattern(source);
    var dir := TempDirPath(root, pattern, random);
    JoinIsUnder(root, pattern + random);
    assert dir[|root| + 1..] == pattern + random;
    forall i | |root| + 1 <= i < |dir|
      ensures dir[i] != '/'
    {
      var k := i - (|root| + 1);
      assert dir[i] == (pattern + random)[k];
      if k >= |pattern| {
        assert (pattern + random)[k] == random[k - |pattern|];
      }
    }
  }

  /** The credentials handed to the client: the resource's, then the provider's. */
  function MergedCreds(req: Request, client: ApiClient): (r: seq<RegistryCredential>)
    ensures |r| == |req.registry| + |client.registry|
    ensures r[..|req.registry|] == RegistryCreds(req.registry)
    ensures r[|req.registry|..] == client.registry
  {
    RegistryCreds(req.registry) + client.registry
  }

  /** The files to stage: the resource's, then the provider's. */
  function MergedFiles(req: Request, client: ApiClient): (r: seq<ExtraFile>)
    ensures |r| == |req.extraFile| + |client.extraFiles|
    ensures r[..|req.extraFile|] == ParseExtraFiles(req.extraFile)
    ensures r[|req.extraFile|..] == client.extraFiles
  {
    ParseExtraFiles(req.extraFile) + client.extraFiles
  }

  /** The client configuration calls `run` makes, in order: backend
      variables, environment, variables (as `TF_VAR_` environment entries or
      as Terraform variables), registry credentials when there are any. */
  function ConfigureClient(req: Request, client: ApiClient, varsAsEnv: bool): CliConfig {
    var backend := if req.backendConfig.Some? then Some(ToStringMap(req.backendConfig.value)) else None;
    var env := if req.envs.Some? then Some(ToStringMap(req.envs.value)) else None;
    var appended := if req.vars.Some? && varsAsEnv then Some(ToEnvStringMap(req.vars.value)) else None;
    var vars := if req.vars.Some? && !varsAsEnv then Some(ToStringMap(req.vars.value)) else None;
    var creds := MergedCreds(req, client);
    CliConfig(backend, env, appended, vars, if |creds| > 0 then Some(creds) else None)
  }

  /** Backend variables and environment are passed through when present;
      variables go either into the environment with the `TF_VAR_` prefix
      (`varsAsEnv`, as Delete does) or as Terraform variables, never both,
      and Terraform sees the same variables either way; credentials, the
      resource's followed by the provider's, are set only when there are some. */
  lemma ClientConfiguration(req: Request, client: ApiClient, varsAsEnv: bool)
    ensures var c := ConfigureClient(req, client, varsAsEnv);
      && (c.backendVars.Some? <==> req.backendConfig.Some?)
      && (c.backendVars.Some? ==> c.backendVars.value.Keys == req.backendConfig.value.Keys)
      && (c.env.Some? <==> req.envs.Some?)
      && (c.env.Some? ==> c.env.value.Keys == req.envs.value.Keys)
      && (varsAsEnv ==> c.vars.None? && (c.appendedEnv.Some? <==> req.vars.Some?))
      && (!varsAsEnv ==> c.appendedEnv.None? && (c.vars.Some? <==> req.vars.Some?))
      && (c.appendedEnv.Some? ==> EnvToVars(c.appendedEnv.value) == ToStringMap(req.vars.value))
      && (c.appendedEnv.Some? ==> |c.appendedEnv.value| == |req.vars.value|)
      && (c.vars.Some? ==> c.vars.value.Keys == req.vars.value.Keys)
      && (c.registry.Some? <==> |req.registry| + |client.registry| > 0)
      && (c.registry.Some? ==> c.registry.value == MergedCreds(req, client))
  {
    if req.vars.Some? {
      EnvDeliversSameVars(req.vars.value);
      CoercionKeepsSize(req.vars.value);
    }
  }

  /** The directories below `dir` that a fetched file at relative path
      `rel` sits in: one for each `/` inside `rel`. */
  function ParentDirs(dir: Path, rel: Path): set<Path> {
    set i | 0 < i < |rel| && rel[i] == '/' :: Join(dir, rel[..i])
  }

  /** Every directory the fetched module brings along. */
  function ModuleDirs(dir: Path, fetched: map<Path, Contents>): set<Path> {
    set rel, d | rel in fetched && d in ParentDirs(dir, rel) :: d
  }

  /** The module fetch places its files, and the directories they sit in,
      in the working directory. */
  function InstallModule(fs: Fs, dir: Path, fetched: map<Path, Contents>): Fs {
    JoinRelativeEverywhere(dir);
    Fs(fs.dirs + ModuleDirs(dir, fetched),
       fs.files + map rel | rel in fetched :: Join(dir, rel) := fetched[rel])
  }

  /** Every directory on the way to a fetched file exists after the fetch,
      and every directory the fetch adds lies inside the working directory. */
  lemma InstallModuleDirs(fs: Fs, dir: Path, fetched: map<Path, Contents>)
    ensures var r := InstallModule(fs, dir, fetched);
      && (forall rel, i :: rel in fetched && 0 < i < |rel| && rel[i] == '/' ==> Join(dir, rel[..i]) in r.dirs)
      && (forall d :: d in r.dirs && d !in fs.dirs ==> Under(d, dir))
  {
    var r := InstallModule(fs, dir, fetched);
    forall rel, i | rel in fetched && 0 < i < |rel| && rel[i] == '/'
      ensures Join(dir, rel[..i]) in r.dirs
    {
      assert Join(dir, rel[..i]) in ParentDirs(dir, rel);
    }
    forall d | d in r.dirs && d !in fs.dirs
      ensures Under(d, dir)
    {
      var rel :| rel in fetched && d in ParentDirs(dir, rel);
      var i :| 0 < i < |rel| && rel[i] == '/' && d == Join(dir, rel[..i]);
      JoinIsUnder(dir, rel[..i]);
    }
  }

  /** Every fetched file lands at its path in the working directory, with
      its directories, and nothing outside that directory changes. */
  lemma InstallModuleStaysInside(fs: Fs, dir: Path, fetched: map<Path, Contents>)
    ensures var r := InstallModule(fs, dir, fetched);
      && fs.dirs <= r.dirs
      && (forall rel :: rel in fetched ==> Join(dir, rel) in r.files && r.files[Join(dir, rel)] == fetched[rel])
      && SameOutside(fs, r, dir)
  {
    JoinRelativeEverywhere(dir);
    var placed := map rel | rel in fetched :: Join(dir, rel) := fetched[rel];
    var added := ModuleDirs(dir, fetched);
    assert InstallModule(fs, dir, fetched) == Fs(fs.dirs + added, fs.files + placed);
    forall rel | rel in fetched
      ensures Join(dir, rel) in placed && placed[Join(dir, rel)] == fetched[rel]
    {
    }
    forall p | p in placed
      ensures Under(p, dir)
    {
      var rel :| rel in fetched && p == Join(dir, rel);
      JoinIsUnder(dir, rel);
    }
    InstallModuleDirs(fs, dir, fetched);
    AddInsideStaysInside(fs, placed, added, dir);
  }

  /** A directory the fetch brings along is seen by the pre-check: a
      non-forced extra file named like a subdirectory of a fetched file's
      path is a conflict, and nothing is written. */
  lemma FetchedSubdirectoryConflicts(fs: Fs, faults: Faults, dir: Path, fetched: map<Path, Contents>,
                                     rel: Path, i: nat, f: ExtraFile)
    requires rel in fetched && 0 < i < |rel| && rel[i] == '/'
    requires f.path == rel[..i] && !f.force
    ensures var installed := InstallModule(fs, dir, fetched);
      WriteFiles(installed, faults, dir, [f]) == Staged(Fail(ConflictMessage(f.path)), installed)
  {
    var installed := InstallModule(fs, dir, fetched);
    InstallModuleDirs(fs, dir, fetched);
    assert Join(dir, f.path) in installed.dirs;
    WriteFilesReportsFirstConflict(installed, faults, dir, [f], 0);
  }

  /** The Create runner: plan into `.plan.json`, apply that plan, read the
      outputs; the plan file is removed on every exit. */
  function ApplyRun(w: World, fs: Fs, dir: Path, st: State): (r: RunnerResult)
    ensures Join(dir, PlanFileName) !in r.fs.files
    ensures r.fs.dirs == fs.dirs && r.fs.files.Keys == fs.files.Keys - {Join(dir, PlanFileName)}
    ensures forall p :: p in r.fs.files ==> r.fs.files[p] == fs.files[p]
    ensures r.deferred == [RemovePlanFile]
    ensures r.state.id == st.id
    ensures r.outcome.Pass? <==> w.plan.Pass? && w.apply.Pass? && w.output.Success?
    ensures r.state.output == (if r.outcome.Pass? then w.output.value else st.output)
  {
    var cleaned := Remove(fs, Join(dir, PlanFileName));
    if w.plan.Fail? then
      RunnerResult(Fail(PlanFailed + w.plan.error), cleaned, st, [Plan], [RemovePlanFile])
    else if w.apply.Fail? then
      RunnerResult(Fail(ApplyFailed + w.apply.error), cleaned, st, [Plan, Apply], [RemovePlanFile])
    else match w.output
      case Failure(e) =>
        RunnerResult(Fail(OutputFailed + e), cleaned, st, [Plan, Apply, ReadOutput], [RemovePlanFile])
      case Success(out) =>
        RunnerResult(Pass, cleaned, st.(output := out), [Plan, Apply, ReadOutput], [RemovePlanFile])
  }

  /** The Delete runner: destroy, then clear the id. */
  function DestroyRun(w: World, fs: Fs, st: State): (r: RunnerResult)
    ensures r.fs == fs && r.calls == [Destroy] && r.deferred == []
    ensures r.state.output == st.output
    ensures r.state.id == (if r.outcome.Pass? then "" else st.id)
    ensures r.outcome.Pass? <==> w.destroy.Pass?
  {
    if w.destroy.Fail? then
      RunnerResult(Fail(DestroyFailed + w.destroy.error), fs, st, [Destroy], [])
    else
      RunnerResult(Pass, fs, st.(id := ""), [Destroy], [])
  }

  function RunRunner(runner: Runner, w: World, fs: Fs, dir: Path, st: State): RunnerResult {
    match runner
    case ApplyRunner => ApplyRun(w, fs, dir, st)
    case DestroyRunner => DestroyRun(w, fs, st)
  }

  /** The working directory once the module is in place: a local module is
      used as it is, a fetched one is installed into the temp directory. */
  function ModuleDir(fs: Fs, dir: Path, w: World, isLocal: bool): Fs
    requires isLocal || w.fetched.Success?
  {
    if isLocal then fs else InstallModule(fs, dir, w.fetched.value)
  }

  /** The outcome of staging the merged extra files into the module directory. */
  function StageExtraFiles(req: Request, client: ApiClient, w: World, fs: Fs, dir: Path, isLocal: bool): Staged
    requires isLocal || w.fetched.Success?
  {
    WriteFiles(ModuleDir(fs, dir, w, isLocal), w.faults, dir, MergedFiles(req, client))
  }

  /** The phases of a session up to and including staging. */
  function StagingPhases(isLocal: bool): seq<Phase> {
    if isLocal then [StageFiles] else [GetModule, StageFiles]
  }

  /** The part of `run` after the working directory is known: client
      configuration, module fetch (remote only), staging, init and the
      runner, with extra-file cleanup deferred just before staging. The
      phases it reports are its own; `Run` puts the earlier ones in front. */
  function Session(req: Request, client: ApiClient, varsAsEnv: bool, runner: Runner, w: World,
                   fs: Fs, prior: State, dir: Path, id: string, isLocal: bool): RunResult
  {
    var config := Some(ConfigureClient(req, client, varsAsEnv));
    if !isLocal && w.fetched.Failure? then
      RunResult(Fail(w.errorBuffer + ErrorLabel + w.fetched.error), fs, prior, config, [GetModule], [])
    else
      var files := MergedFiles(req, client);
      var staged := StageExtraFiles(req, client, w, fs, dir, isLocal);
      if staged.outcome.Fail? then
        RunResult(Fail(w.errorBuffer + ErrorLabel + staged.outcome.error),
                  CleanupFiles(staged.fs, dir, files), prior, config,
                  StagingPhases(isLocal), [CleanupExtraFiles])
      else if w.init.Fail? then
        RunResult(Fail(w.errorBuffer + InitLabel + w.init.error),
                  CleanupFiles(staged.fs, dir, files), prior, config,
                  StagingPhases(isLocal) + [Init], [CleanupExtraFiles])
      else
        var ran := RunRunner(runner, w, staged.fs, dir, prior);
        RunResult(if ran.outcome.Fail? then Fail(w.errorBuffer + RunnerLabel + ran.outcome.error) else Pass,
                  CleanupFiles(ran.fs, dir, files),
                  if ran.outcome.Pass? then ran.state.(id := id) else ran.state,
                  config, StagingPhases(isLocal) + [Init] + ran.calls, ran.deferred + [CleanupExtraFiles])
  }

  /** `run`: binary, validation and identity, working directory, then the
      session; a created temp directory is removed last, after everything. */
  function Run(req: Request, client: ApiClient, varsAsEnv: bool, runner: Runner, w: World,
               fs: Fs, prior: State): RunResult
  {
    var bin := TerraformBin(req.terraformVersion, w.terraformOnPath, w.download);
    if bin.Fail? then RunResult(bin, fs, prior, None, [ResolveBinary], [])
    else match Identity(req)
      case Failure(e) => RunResult(Fail(e), fs, prior, None, [ResolveBinary, Validate], [])
      case Success(id) =>
        if req.modulePath != "" then
          var s := Session(req, client, varsAsEnv, runner, w, fs, prior, req.modulePath, id, true);
          s.(calls := [ResolveBinary] + s.calls)
        else match w.tempDir
          case Failure(e) => RunResult(Fail(e), fs, prior, None, [ResolveBinary, Validate, CreateTempDir], [])
          case Success(random) =>
            var dir := TempDirPath(w.tempRoot, TempDirPattern(req.source), random);
            var s := Session(req, client, varsAsEnv, runner, w, fs.(dirs := fs.dirs + {dir}), prior,
                             dir, id, false);
            s.(fs := RemoveAll(s.fs, dir), calls := [ResolveBinary, Validate, CreateTempDir] + s.calls,
               deferred := s.deferred + [RemoveTempDir])
  }

  /** `resourceApplyCreate`: variables as Terraform variables, plan/apply/output. */
  function Create(req: Request, client: ApiClient, w: World, fs: Fs, prior: State): RunResult {
    Run(req, client, false, ApplyRunner, w, fs, prior)
  }

  /** `resourceApplyUpdate` is Create. */
  function Update(req: Request, client: ApiClient, w: World, fs: Fs, prior: State): RunResult {
    Create(req, client, w, fs, prior)
  }

  /** `resourceApplyDelete`: variables through the environment, destroy. */
  function Delete(req: Request, client: ApiClient, w: World, fs: Fs, prior: State): RunResult {
    Run(req, client, true, DestroyRunner, w, fs, prior)
  }
}

=== FILE: provider.dfy ===
/** The provider-level records and conversions: the `registry` and
    `extra_file` blocks, the client handed to every resource operation, and
    the schema description builder. */
module Provider {
  import opened Wrappers
  import opened Encoding
  import opened GoText
  import opened Filesystem

  /** One `registry` block as configured: both attributes are required. */
  datatype RegistryBlock = RegistryBlock(host: string, token: string)

  /** One `extra_file` block as configured; `force` and `cleanup` are
      optional and read as `false` when unset. */
  datatype FileBlock = FileBlock(path: string, content: string, force: bool, cleanup: bool)

  /** The Terraform client's registry credential. Its host field is called
      `Type` by the client library. */
  datatype RegistryCredential = RegistryCredential(host: string, token: string)

  /** An auxiliary file to stage into the module directory. */
  datatype ExtraFile = ExtraFile(content: Contents, path: string, force: bool, cleanup: bool)

  /** The provider configuration: the same two block lists a resource has. */
  datatype ProviderConfig = ProviderConfig(registry: seq<RegistryBlock>, extraFile: seq<FileBlock>)

  /** The configured provider, shared by all resource operations. */
  datatype ApiClient = ApiClient(registry: seq<RegistryCredential>, extraFiles: seq<ExtraFile>)

  /** One credential per block, in block order. */
  function RegistryCreds(blocks: seq<RegistryBlock>): (r: seq<RegistryCredential>)
    ensures |r| == |blocks|
    ensures forall i :: 0 <= i < |r| ==> r[i].host == blocks[i].host && r[i].token == blocks[i].token
  {
    if blocks == [] then []
    else [RegistryCredential(blocks[0].host, blocks[0].token)] + RegistryCreds(blocks[1..])
  }

  /** One extra file per block, in block order; the content is the UTF-8
      encoding of the configured string, so decoding gives the string back. */
  function ParseExtraFiles(blocks: seq<FileBlock>): (r: seq<ExtraFile>)
    ensures |r| == |blocks|
    ensures forall i :: 0 <= i < |r| ==>
      && r[i].path == blocks[i].path
      && r[i].force == blocks[i].force
      && r[i].cleanup == blocks[i].cleanup
      && r[i].content == Encode(blocks[i].content)
  {
    if blocks == [] then []
    else
      var b := blocks[0];
      [ExtraFile(Encode(b.content), b.path, b.force, b.cleanup)] + ParseExtraFiles(blocks[1..])
  }

  /** Parsing preserves the configured text of every file. */
  lemma ParsedContentDecodes(blocks: seq<FileBlock>, i: nat)
    requires i < |blocks|
    ensures Decode(ParseExtraFiles(blocks)[i].content) == Some(blocks[i].content)
  {
    DecodeEncode(blocks[i].content);
  }

  /** Both parses are order-preserving homomorphisms: parsing two lists one
      after the other is parsing their concatenation. */
  lemma {:induction false} RegistryCredsAppend(a: seq<RegistryBlock>, b: seq<RegistryBlock>)
    ensures RegistryCreds(a + b) == RegistryCreds(a) + RegistryCreds(b)
  {
    if a != [] {
      assert (a + b)[1..] == a[1..] + b;
      RegistryCredsAppend(a[1..], b);
    } else {
      assert a + b == b;
    }
  }

  lemma {:induction false} ParseExtraFilesAppend(a: seq<FileBlock>, b: seq<FileBlock>)
    ensures ParseExtraFiles(a + b) == ParseExtraFiles(a) + ParseExtraFiles(b)
  {
    if a != [] {
      assert (a + b)[1..] == a[1..] + b;
      ParseExtraFilesAppend(a[1..], b);
    } else {
      assert a + b == b;
    }
  }

  /** The provider's configure step: the client holds exactly the parsed
      provider-level credentials and extra files. */
  function Configure(p: ProviderConfig): (c: ApiClient)
    ensures |c.registry| == |p.registry| && |c.extraFiles| == |p.extraFile|
    ensures forall i :: 0 <= i < |p.registry| ==>
      c.registry[i] == RegistryCredential(p.registry[i].host, p.registry[i].token)
    ensures forall i :: 0 <= i < |p.extraFile| ==>
      c.extraFiles[i] == ExtraFile(Encode(p.extraFile[i].content), p.extraFile[i].path,
                                   p.extraFile[i].force, p.extraFile[i].cleanup)
  {
    ApiClient(RegistryCreds(p.registry), ParseExtraFiles(p.extraFile))
  }

  /** The text appended to a description when the attribute has a default. */
  function DefaultNote(v: Value): string {
    "Defaults to `" + Sprint(v) + "`."
  }

  /** The schema description builder: the description, followed by a note
      on the default when there is one, with surrounding white space removed. */
  function SchemaDescription(description: string, default: Option<Value>): (r: string)
    ensures Trimmed(r)
    ensures default.None? ==> r == TrimSpace(description)
    ensures default.Some? ==> IsSuffix(DefaultNote(default.value), r)
    ensures default.Some? && !AllSpace(description) ==> r == TrimLeft(description) + " " + DefaultNote(default.value)
    ensures default.Some? && AllSpace(description) ==> r == DefaultNote(default.value)
  {
    var desc := if default.Some? then description + " " + DefaultNote(default.value) else description;
    var r := TrimSpace(desc);
    if default.Some? then
      DescriptionKeepsNote(description, default.value);
      DescriptionWithNote(description, default.value);
      r
    else r
  }

  /** With a default, the built description is the description without its
      leading white space, a space and the note; a blank description leaves
      only the note. */
  lemma DescriptionWithNote(description: string, v: Value)
    ensures !AllSpace(description) ==>
      TrimSpace(description + " " + DefaultNote(v)) == TrimLeft(description) + " " + DefaultNote(v)
    ensures AllSpace(description) ==> TrimSpace(description + " " + DefaultNote(v)) == DefaultNote(v)
  {
    NoteEndsTrimmed(description, v);
    TrimSpaceBeforeWord(description, DefaultNote(v));
  }

  /** The note starts with a letter and ends with a full stop, so a
      description followed by it has no trailing white space. */
  lemma NoteEndsTrimmed(description: string, v: Value)
    ensures DefaultNote(v)[0] == 'D' && DefaultNote(v)[|DefaultNote(v)| - 1] == '.'
    ensures TrimRight(description + " " + DefaultNote(v)) == description + " " + DefaultNote(v)
  {
    var note := DefaultNote(v);
    var s := description + " " + note;
    assert note[|note| - 1] == '.';
    assert s[|s| - 1] == note[|note| - 1];
  }

  lemma DescriptionKeepsNote(description: string, v: Value)
    ensures IsSuffix(DefaultNote(v), TrimSpace(description + " " + DefaultNote(v)))
  {
    var note := DefaultNote(v);
    NoteEndsTrimmed(description, v);
    assert description + " " + note == (description + " ") + note;
    TrimLeftKeepsTail(description + " ", note);
  }
}

=== FILE: runeffects.dfy ===
/** What a run leaves behind: the resource state (id and outputs), the
    filesystem, and the configuration handed to the Terraform client. */
module RunEffects {
  import opened Wrappers
  import opened GoText
  import opened Filesystem
  import opened Provider
  import opened VarCoercion
  import opened FileStaging
  import opened Orchestrator
  import opened RunProperties

  /** The state a session leaves: the prior state on failure; on success the
      session's id, with the outputs read by Create, or the outputs kept by
      Delete (whose runner clears the id before the session sets it again). */
  lemma SessionState(req: Request, client: ApiClient, varsAsEnv: bool, runner: Runner, w: World,
                     fs: Fs, prior: State, dir: Path, id: string, isLocal: bool)
    ensures var s := Session(req, client, varsAsEnv, runner, w, fs, prior, dir, id, isLocal);
      && (s.diagnostics.Fail? ==> s.state == prior)
      && (s.diagnostics.Pass? && runner == ApplyRunner ==> w.output.Success? && s.state == State(id, w.output.value))
      && (s.diagnostics.Pass? && runner == DestroyRunner ==> s.state == prior.(id := id))
  {
    if !isLocal && w.fetched.Failure? {
      SessionFetchFails(req, client, varsAsEnv, runner, w, fs, prior, dir, id, isLocal);
    } else {
      var staged := StageExtraFiles(req, client, w, fs, dir, isLocal);
      if staged.outcome.Fail? {
        SessionStagingFails(req, client, varsAsEnv, runner, w, fs, prior, dir, id, isLocal);
      } else if w.init.Fail? {
        SessionInitFails(req, client, varsAsEnv, runner, w, fs, prior, dir, id, isLocal);
      } else {
        SessionRunsRunner(req, client, varsAsEnv, runner, w, fs, prior, dir, id, isLocal);
      }
    }
  }

  /** The resource state changes only when the run succeeds. Then the id is
      the run's identity (module path or `source:version`); Create stores
      the outputs it read, Delete keeps the outputs it had. */
  lemma StateChangesOnlyOnSuccess(req: Request, client: ApiClient, varsAsEnv: bool, runner: Runner,
                                  w: World, fs: Fs, prior: State)
    ensures var r := Run(req, client, varsAsEnv, runner, w, fs, prior);
      && (r.diagnostics.Fail? ==> r.state == prior)
      && (r.diagnostics.Pass? ==> Identity(req).Success?)
      && (r.diagnostics.Pass? && runner == ApplyRunner ==>
            w.output.Success? && r.state == State(Identity(req).value, w.output.value))
      && (r.diagnostics.Pass? && runner == DestroyRunner ==> r.state == prior.(id := Identity(req).value))
  {
    var bin := TerraformBin(req.terraformVersion, w.terraformOnPath, w.download);
    if bin.Fail? || Identity(req).Failure? {
      RunStopsBeforeWorkDir(req, client, varsAsEnv, runner, w, fs, prior);
    } else if req.modulePath != "" {
      RunLocal(req, client, varsAsEnv, runner, w, fs, prior);
      SessionState(req, client, varsAsEnv, runner, w, fs, prior, req.modulePath, req.modulePath, true);
    } else if w.tempDir.Failure? {
      RunTempDirFails(req, client, varsAsEnv, runner, w, fs, prior);
    } else {
      var dir := TempDirOf(req, w);
      RunRemote(req, client, varsAsEnv, runner, w, fs, prior);
      SessionState(req, client, varsAsEnv, runner, w, fs.(dirs := fs.dirs + {dir}), prior, dir,
                   req.source + ":" + req.version, false);
    }
  }

  /** A successful Delete leaves the id set to the run's identity: the
      destroy runner clears it, and `run` sets it again afterwards. */
  lemma DeleteLeavesIdSet(req: Request, client: ApiClient, w: World, fs: Fs, prior: State)
    ensures var r := Delete(req, client, w, fs, prior);
      r.diagnostics.Pass? ==> r.state.id != "" && r.state.id == Identity(req).value && r.state.output == prior.output
  {
    StateChangesOnlyOnSuccess(req, client, true, DestroyRunner, w, fs, prior);
  }

  /** The runners touch nothing outside the working directory: Create only
      removes its plan file there, Delete changes no file. */
  lemma RunnerStaysInside(runner: Runner, w: World, fs: Fs, dir: Path, st: State)
    ensures SameOutside(fs, RunRunner(runner, w, fs, dir, st).fs, dir)
  {
    JoinIsUnder(dir, PlanFileName);
  }

  /** A session touches nothing outside its working directory. */
  lemma SessionStaysInside(req: Request, client: ApiClient, varsAsEnv: bool, runner: Runner, w: World,
                           fs: Fs, prior: State, dir: Path, id: string, isLocal: bool)
    ensures SameOutside(fs, Session(req, client, varsAsEnv, runner, w, fs, prior, dir, id, isLocal).fs, dir)
  {
    var s := Session(req, client, varsAsEnv, runner, w, fs, prior, dir, id, isLocal);
    if !isLocal && w.fetched.Failure? {
      SessionFetchFails(req, client, varsAsEnv, runner, w, fs, prior, dir, id, isLocal);
    } else {
      var files := MergedFiles(req, client);
      var moduleFs := ModuleDir(fs, dir, w, isLocal);
      if !isLocal {
        InstallModuleStaysInside(fs, dir, w.fetched.value);
      }
      var staged := StageExtraFiles(req, client, w, fs, dir, isLocal);
      WriteFilesStaysInside(moduleFs, w.faults, dir, files);
      SameOutsideTransitive(fs, moduleFs, staged.fs, dir);
      if staged.outcome.Fail? || w.init.Fail? {
        if staged.outcome.Fail? {
          SessionStagingFails(req, client, varsAsEnv, runner, w, fs, prior, dir, id, isLocal);
        } else {
          SessionInitFails(req, client, varsAsEnv, runner, w, fs, prior, dir, id, isLocal);
        }
        CleanupStaysInside(staged.fs, dir, files);
        SameOutsideTransitive(fs, staged.fs, s.fs, dir);
      } else {
        SessionRunsRunner(req, client, varsAsEnv, runner, w, fs, prior, dir, id, isLocal);
        var ran := RunRunner(runner, w, staged.fs, dir, prior);
        RunnerStaysInside(runner, w, staged.fs, dir, prior);
        CleanupStaysInside(ran.fs, dir, files);
        SameOutsideTransitive(fs, staged.fs, ran.fs, dir);
        SameOutsideTransitive(fs, ran.fs, s.fs, dir);
      }
    }
  }

  /** A run on a local module changes nothing outside the module directory. */
  lemma LocalRunStaysInModuleDir(req: Request, client: ApiClient, varsAsEnv: bool, runner: Runner,
                                 w: World, fs: Fs, prior: State)
    requires req.modulePath != ""
    ensures SameOutside(fs, Run(req, client, varsAsEnv, runner, w, fs, prior).fs, req.modulePath)
  {
    if TerraformBin(req.terraformVersion, w.terraformOnPath, w.download).Fail? {
      RunStopsBeforeWorkDir(req, client, varsAsEnv, runner, w, fs, prior);
    } else {
      RunLocal(req, client, varsAsEnv, runner, w, fs, prior);
      SessionStaysInside(req, client, varsAsEnv, runner, w, fs, prior, req.modulePath, req.modulePath, true);
    }
  }

  /** A run on a fetched module leaves the filesystem as removing its temp
      directory would: whatever the session did happened inside it. When the
      temp directory's name was fresh, the filesystem is exactly as before. */
  lemma RemoteRunLeavesNoTrace(req: Request, client: ApiClient, varsAsEnv: bool, runner: Runner,
                               w: World, fs: Fs, prior: State)
    requires CreatesTempDir(req, w)
    ensures Run(req, client, varsAsEnv, runner, w, fs, prior).fs == RemoveAll(fs, TempDirOf(req, w))
    ensures Fresh(fs, TempDirOf(req, w)) ==> Run(req, client, varsAsEnv, runner, w, fs, prior).fs == fs
  {
    var dir := TempDirOf(req, w);
    var withDir := fs.(dirs := fs.dirs + {dir});
    var s := RemoteSession(req, client, varsAsEnv, runner, w, fs, prior);
    RunRemote(req, client, varsAsEnv, runner, w, fs, prior);
    SessionStaysInside(req, client, varsAsEnv, runner, w, withDir, prior, dir, req.source + ":" + req.version, false);
    assert SameOutside(fs, withDir, dir);
    SameOutsideTransitive(fs, withDir, s.fs, dir);
    RemoveAllForgetsInside(fs, s.fs, dir);
    if Fresh(fs, dir) {
      RemoveAllOfFresh(fs, dir);
    }
  }

  /** Once planning has started, a session leaves no plan file behind. */
  lemma SessionRemovesPlanFile(req: Request, client: ApiClient, varsAsEnv: bool, runner: Runner, w: World,
                               fs: Fs, prior: State, dir: Path, id: string, isLocal: bool)
    ensures var s := Session(req, client, varsAsEnv, runner, w, fs, prior, dir, id, isLocal);
      Plan in s.calls ==> Join(dir, PlanFileName) !in s.fs.files
  {
    if !isLocal && w.fetched.Failure? {
      SessionFetchFails(req, client, varsAsEnv, runner, w, fs, prior, dir, id, isLocal);
    } else {
      var staged := StageExtraFiles(req, client, w, fs, dir, isLocal);
      if staged.outcome.Fail? {
        SessionStagingFails(req, client, varsAsEnv, runner, w, fs, prior, dir, id, isLocal);
        assert Plan !in StagingPhases(isLocal);
      } else if w.init.Fail? {
        SessionInitFails(req, client, varsAsEnv, runner, w, fs, prior, dir, id, isLocal);
        assert Plan !in StagingPhases(isLocal) + [Init];
      } else {
        SessionRunsRunner(req, client, varsAsEnv, runner, w, fs, prior, dir, id, isLocal);
        var ran := RunRunner(runner, w, staged.fs, dir, prior);
        RunnerCalls(runner, w, staged.fs, dir, prior);
        CleanupRemovesMarked(ran.fs, dir, MergedFiles(req, client));
        assert Plan in StagingPhases(isLocal) + [Init] + ran.calls ==> Plan in ran.calls;
      }
    }
  }

  /** The plan file Create writes into a local module is gone after the run,
      however the run ended. */
  lemma LocalPlanFileRemoved(req: Request, client: ApiClient, varsAsEnv: bool, runner: Runner,
                             w: World, fs: Fs, prior: State)
    requires req.modulePath != ""
    ensures var r := Run(req, client, varsAsEnv, runner, w, fs, prior);
      Plan in r.calls ==> Join(req.modulePath, PlanFileName) !in r.fs.files
  {
    if TerraformBin(req.terraformVersion, w.terraformOnPath, w.download).Fail? {
      RunStopsBeforeWorkDir(req, client, varsAsEnv, runner, w, fs, prior);
    } else {
      var s := LocalSession(req, client, varsAsEnv, runner, w, fs, prior);
      RunLocal(req, client, varsAsEnv, runner, w, fs, prior);
      SessionRemovesPlanFile(req, client, varsAsEnv, runner, w, fs, prior, req.modulePath, req.modulePath, true);
      assert Plan in RunHead(true) + s.calls ==> Plan in s.calls;
    }
  }

  /** Once staging has started, a session leaves none of the targets marked
      for cleanup behind: the deferred cleanup runs whether staging, init or
      the runner failed, or everything succeeded. */
  lemma SessionRemovesMarked(req: Request, client: ApiClient, varsAsEnv: bool, runner: Runner, w: World,
                             fs: Fs, prior: State, dir: Path, id: string, isLocal: bool)
    ensures var s := Session(req, client, varsAsEnv, runner, w, fs, prior, dir, id, isLocal);
      StageFiles in s.calls ==>
        forall p :: p in CleanupTargets(dir, MergedFiles(req, client)) ==> p !in s.fs.files
  {
    var files := MergedFiles(req, client);
    if !isLocal && w.fetched.Failure? {
      SessionFetchFails(req, client, varsAsEnv, runner, w, fs, prior, dir, id, isLocal);
    } else {
      var staged := StageExtraFiles(req, client, w, fs, dir, isLocal);
      if staged.outcome.Fail? {
        SessionStagingFails(req, client, varsAsEnv, runner, w, fs, prior, dir, id, isLocal);
        CleanupRemovesMarked(staged.fs, dir, files);
      } else if w.init.Fail? {
        SessionInitFails(req, client, varsAsEnv, runner, w, fs, prior, dir, id, isLocal);
        CleanupRemovesMarked(staged.fs, dir, files);
      } else {
        SessionRunsRunner(req, client, varsAsEnv, runner, w, fs, prior, dir, id, isLocal);
        var ran := RunRunner(runner, w, staged.fs, dir, prior);
        CleanupRemovesMarked(ran.fs, dir, files);
      }
    }
  }

  /** After a run on a local module that reached staging, none of the
      cleanup-marked extra files is left in the module, however the run
      ended. */
  lemma LocalRunRemovesMarked(req: Request, client: ApiClient, varsAsEnv: bool, runner: Runner,
                              w: World, fs: Fs, prior: State)
    requires req.modulePath != ""
    ensures var r := Run(req, client, varsAsEnv, runner, w, fs, prior);
      StageFiles in r.calls ==>
        forall p :: p in CleanupTargets(req.modulePath, MergedFiles(req, client)) ==> p !in r.fs.files
  {
    if TerraformBin(req.terraformVersion, w.terraformOnPath, w.download).Fail? {
      RunStopsBeforeWorkDir(req, client, varsAsEnv, runner, w, fs, prior);
    } else {
      var s := LocalSession(req, client, varsAsEnv, runner, w, fs, prior);
      RunLocal(req, client, varsAsEnv, runner, w, fs, prior);
      SessionRemovesMarked(req, client, varsAsEnv, runner, w, fs, prior, req.modulePath, req.modulePath, true);
      assert StageFiles in RunHead(true) + s.calls ==> StageFiles in s.calls;
    }
  }

  /** When staging stops at a conflict in a local module, the run fails,
      nothing is written, and the deferred cleanup still removes every
      cleanup-marked target: a file the module already had is deleted when
      a conflicting spec for it is marked for cleanup. */
  lemma ConflictCleanupRemovesMarked(req: Request, client: ApiClient, varsAsEnv: bool, runner: Runner,
                                     w: World, fs: Fs, prior: State, k: nat)
    requires TerraformBin(req.terraformVersion, w.terraformOnPath, w.download).Pass?
    requires req.modulePath != ""
    requires k < |MergedFiles(req, client)|
    requires Conflicts(fs, w.faults.statFails, req.modulePath, MergedFiles(req, client)[k])
    ensures var r := Run(req, client, varsAsEnv, runner, w, fs, prior);
      && r.diagnostics.Fail?
      && r.state == prior
      && r.fs.dirs == fs.dirs
      && r.fs.files.Keys == fs.files.Keys - CleanupTargets(req.modulePath, MergedFiles(req, client))
      && (forall p :: p in r.fs.files ==> r.fs.files[p] == fs.files[p])
  {
    var dir := req.modulePath;
    var files := MergedFiles(req, client);
    RunLocal(req, client, varsAsEnv, runner, w, fs, prior);
    ConflictWritesNothing(fs, w.faults, dir, files, k);
    SessionStagingFails(req, client, varsAsEnv, runner, w, fs, prior, dir, dir, true);
    CleanupRemovesMarked(fs, dir, files);
  }

  /** The concrete case: a local module with a `main.tf`, and one extra file
      `main.tf`, neither forced nor kept. Create fails with the conflict
      message and the module's own `main.tf` is gone afterwards. */
  lemma ConflictDeletesModuleFile(req: Request, client: ApiClient, w: World, fs: Fs, prior: State, content: string)
    requires TerraformBin(req.terraformVersion, w.terraformOnPath, w.download).Pass?
    requires req.modulePath != ""
    requires req.extraFile == [FileBlock("main.tf", content, false, true)] && client.extraFiles == []
    requires Join(req.modulePath, "main.tf") in fs.files
    ensures var r := Create(req, client, w, fs, prior);
      && r.diagnostics == Fail(w.errorBuffer + ErrorLabel + ConflictMessage("main.tf"))
      && Join(req.modulePath, "main.tf") !in r.fs.files
  {
    var dir := req.modulePath;
    var files := MergedFiles(req, client);
    var f := files[0];
    assert f.path == "main.tf" && !f.force && f.cleanup;
    assert Conflicts(fs, w.faults.statFails, dir, f);
    WriteFilesReportsFirstConflict(fs, w.faults, dir, files, 0);
    RunLocal(req, client, false, ApplyRunner, w, fs, prior);
    SessionStagingFails(req, client, false, ApplyRunner, w, fs, prior, dir, dir, true);
    ConflictCleanupRemovesMarked(req, client, false, ApplyRunner, w, fs, prior, 0);
    assert Target(dir, f) in CleanupTargets(dir, files);
  }

  /** The client is configured exactly when a working directory was
      obtained, and always with the same configuration. */
  lemma ConfiguredOnceWorkDirKnown(req: Request, client: ApiClient, varsAsEnv: bool, runner: Runner,
                                   w: World, fs: Fs, prior: State)
    ensures var r := Run(req, client, varsAsEnv, runner, w, fs, prior);
      && (r.config.Some? <==>
            && TerraformBin(req.terraformVersion, w.terraformOnPath, w.download).Pass?
            && Identity(req).Success?
            && (req.modulePath != "" || w.tempDir.Success?))
      && (r.config.Some? ==> r.config.value == ConfigureClient(req, client, varsAsEnv))
  {
    var bin := TerraformBin(req.terraformVersion, w.terraformOnPath, w.download);
    if bin.Fail? || Identity(req).Failure? {
      RunStopsBeforeWorkDir(req, client, varsAsEnv, runner, w, fs, prior);
    } else if req.modulePath != "" {
      RunLocal(req, client, varsAsEnv, runner, w, fs, prior);
    } else if w.tempDir.Failure? {
      RunTempDirFails(req, client, varsAsEnv, runner, w, fs, prior);
    } else {
      RunRemote(req, client, varsAsEnv, runner, w, fs, prior);
    }
  }

  /** Create hands the module variables to Terraform as variables, with
      their `fmt.Sprint` renderings, and adds nothing to the environment. */
  lemma CreatePassesVarsAsVariables(req: Request, client: ApiClient, w: World, fs: Fs, prior: State)
    ensures var r := Create(req, client, w, fs, prior);
      r.config.Some? ==>
        && r.config.value.appendedEnv.None?
        && (r.config.value.vars.Some? <==> req.vars.Some?)
        && (r.config.value.vars.Some? ==>
              && r.config.value.vars.value.Keys == req.vars.value.Keys
              && forall k :: k in req.vars.value ==> r.config.value.vars.value[k] == Sprint(req.vars.value[k]))
  {
    ConfiguredOnceWorkDirKnown(req, client, false, ApplyRunner, w, fs, prior);
    ClientConfiguration(req, client, false);
  }

  /** Delete hands the module variables over as `TF_VAR_` environment
      entries only, from which Terraform reads back the same variables. */
  lemma DeletePassesVarsThroughEnv(req: Request, client: ApiClient, w: World, fs: Fs, prior: State)
    ensures var r := Delete(req, client, w, fs, prior);
      r.config.Some? ==>
        && r.config.value.vars.None?
        && (r.config.value.appendedEnv.Some? <==> req.vars.Some?)
        && (r.config.value.appendedEnv.Some? ==>
              EnvToVars(r.config.value.appendedEnv.value) == ToStringMap(req.vars.value))
  {
    ConfiguredOnceWorkDirKnown(req, client, true, DestroyRunner, w, fs, prior);
    ClientConfiguration(req, client, true);
  }
}

=== FILE: runproperties.dfy ===
/** What a run promises: the order of its phases, which deferred clean-ups
    run and in what order, when the id and the outputs are stored, how error
    texts are composed, and what a run leaves on the filesystem. */
module RunProperties {
  import opened Wrappers
  import opened GoText
  import opened Filesystem
  import opened Provider
  import opened VarCoercion
  import opened FileStaging
  import opened Orchestrator

  /** The phases of a runner, in order. */
  function RunnerPhases(runner: Runner): seq<Phase> {
    match runner
    case ApplyRunner => [Plan, Apply, ReadOutput]
    case DestroyRunner => [Destroy]
  }

  /** The phases of a session, in order. */
  function SessionPhases(isLocal: bool, runner: Runner): seq<Phase> {
    StagingPhases(isLocal) + [Init] + RunnerPhases(runner)
  }

  /** The phases before the session: the binary, and the source check and
      the temp directory when the module is fetched. */
  function RunHead(isLocal: bool): seq<Phase> {
    if isLocal then [ResolveBinary] else [ResolveBinary, Validate, CreateTempDir]
  }

  /** Every phase a run can attempt, in the order it attempts them. */
  function AllPhases(isLocal: bool, runner: Runner): seq<Phase> {
    RunHead(isLocal) + SessionPhases(isLocal, runner)
  }

  /** The deferred actions that must have run, given the phases attempted:
      the plan file once planning started, the extra files once staging
      started, the temp directory once it was created; in reverse order of
      registration. */
  function DeferredFor(calls: seq<Phase>, tempCreated: bool): seq<Deferred> {
    (if Plan in calls then [RemovePlanFile] else [])
    + (if StageFiles in calls then [CleanupExtraFiles] else [])
    + (if tempCreated then [RemoveTempDir] else [])
  }

  /** Whether `run` gets as far as creating a temp directory. */
  predicate CreatesTempDir(req: Request, w: World) {
    && TerraformBin(req.terraformVersion, w.terraformOnPath, w.download).Pass?
    && req.modulePath == ""
    && req.source != ""
    && w.tempDir.Success?
  }

  function TempDirOf(req: Request, w: World): Path
    requires w.tempDir.Success?
  {
    TempDirPath(w.tempRoot, TempDirPattern(req.source), w.tempDir.value)
  }

  /** The session of a run that created its temp directory. */
  function RemoteSession(req: Request, client: ApiClient, varsAsEnv: bool, runner: Runner,
                         w: World, fs: Fs, prior: State): RunResult
    requires w.tempDir.Success?
  {
    var dir := TempDirOf(req, w);
    Session(req, client, varsAsEnv, runner, w, fs.(dirs := fs.dirs + {dir}), prior, dir,
            req.source + ":" + req.version, false)
  }

  /** The session of a run on a local module. */
  function LocalSession(req: Request, client: ApiClient, varsAsEnv: bool, runner: Runner,
                        w: World, fs: Fs, prior: State): RunResult
  {
    Session(req, client, varsAsEnv, runner, w, fs, prior, req.modulePath, req.modulePath, true)
  }

  lemma PrefixOfAppend(a: seq<Phase>, x: seq<Phase>, full: seq<Phase>)
    requires IsPrefix(x, full)
    ensures IsPrefix(a + x, a + full)
  {
    assert (a + full)[..|a + x|] == a + full[..|x|];
  }

  /** A runner attempts a prefix of its phases, all of them when it succeeds,
      and defers the plan file's removal exactly when it plans. */
  lemma RunnerCalls(runner: Runner, w: World, fs: Fs, dir: Path, st: State)
    ensures var ran := RunRunner(runner, w, fs, dir, st);
      && IsPrefix(ran.calls, RunnerPhases(runner))
      && (ran.outcome.Pass? ==> ran.calls == RunnerPhases(runner))
      && (Plan in ran.calls <==> runner == ApplyRunner)
      && StageFiles !in ran.calls
      && ran.deferred == (if Plan in ran.calls then [RemovePlanFile] else [])
  {
  }

  /** The error a phase of a runner reports when its collaborator fails,
      labelled with the phase; `None` when that phase succeeds. */
  function PhaseFailure(p: Phase, w: World): Option<string> {
    match p
    case Plan => if w.plan.Fail? then Some(PlanFailed + w.plan.error) else None
    case Apply => if w.apply.Fail? then Some(ApplyFailed + w.apply.error) else None
    case ReadOutput => if w.output.Failure? then Some(OutputFailed + w.output.error) else None
    case Destroy => if w.destroy.Fail? then Some(DestroyFailed + w.destroy.error) else None
    case _ => None
  }

  /** A runner stops at its first failing phase: every phase before the last
      one it attempts succeeded, it fails exactly when that last phase
      failed, and its error is that phase's labelled error. */
  lemma RunnerStopsAtFailedPhase(runner: Runner, w: World, fs: Fs, dir: Path, st: State)
    ensures var ran := RunRunner(runner, w, fs, dir, st);
      && |ran.calls| >= 1
      && (forall i :: 0 <= i < |ran.calls| - 1 ==> PhaseFailure(ran.calls[i], w).None?)
      && (ran.outcome.Fail? <==> PhaseFailure(ran.calls[|ran.calls| - 1], w).Some?)
      && (ran.outcome.Fail? ==> ran.outcome.error == PhaseFailure(ran.calls[|ran.calls| - 1], w).value)
  {
  }

  // The four ways a session ends, one lemma each.

  /** A failed module fetch is reported after the captured diagnostics; it
      happens before staging, so nothing is cleaned up. */
  lemma SessionFetchFails(req: Request, client: ApiClient, varsAsEnv: bool, runner: Runner, w: World,
                          fs: Fs, prior: State, dir: Path, id: string, isLocal: bool)
    requires !isLocal && w.fetched.Failure?
    ensures var s := Session(req, client, varsAsEnv, runner, w, fs, prior, dir, id, isLocal);
      && s.diagnostics == Fail(w.errorBuffer + ErrorLabel + w.fetched.error)
      && s.fs == fs && s.state == prior
      && s.calls == [GetModule] && s.deferred == []
  {
  }

  /** A staging failure is reported after the captured diagnostics, and the
      extra-file cleanup still runs. */
  lemma SessionStagingFails(req: Request, client: ApiClient, varsAsEnv: bool, runner: Runner, w: World,
                            fs: Fs, prior: State, dir: Path, id: string, isLocal: bool)
    requires isLocal || w.fetched.Success?
    requires StageExtraFiles(req, client, w, fs, dir, isLocal).outcome.Fail?
    ensures var s := Session(req, client, varsAsEnv, runner, w, fs, prior, dir, id, isLocal);
      var staged := StageExtraFiles(req, client, w, fs, dir, isLocal);
      && s.diagnostics == Fail(w.errorBuffer + ErrorLabel + staged.outcome.error)
      && s.fs == CleanupFiles(staged.fs, dir, MergedFiles(req, client)) && s.state == prior
      && s.calls == StagingPhases(isLocal) && s.deferred == [CleanupExtraFiles]
  {
  }

  /** An init failure carries its own label. */
  lemma SessionInitFails(req: Request, client: ApiClient, varsAsEnv: bool, runner: Runner, w: World,
                         fs: Fs, prior: State, dir: Path, id: string, isLocal: bool)
    requires isLocal || w.fetched.Success?
    requires StageExtraFiles(req, client, w, fs, dir, isLocal).outcome.Pass? && w.init.Fail?
    ensures var s := Session(req, client, varsAsEnv, runner, w, fs, prior, dir, id, isLocal);
      var staged := StageExtraFiles(req, client, w, fs, dir, isLocal);
      && s.diagnostics == Fail(w.errorBuffer + InitLabel + w.init.error)
      && s.fs == CleanupFiles(staged.fs, dir, MergedFiles(req, client)) && s.state == prior
      && s.calls == StagingPhases(isLocal) + [Init] && s.deferred == [CleanupExtraFiles]
  {
  }

  /** Once init succeeds the runner decides: its error is reported with the
      runner label, and on success the id is set, after whatever the runner
      did to the state. */
  lemma SessionRunsRunner(req: Request, client: ApiClient, varsAsEnv: bool, runner: Runner, w: World,
                          fs: Fs, prior: State, dir: Path, id: string, isLocal: bool)
    requires isLocal || w.fetched.Success?
    requires StageExtraFiles(req, client, w, fs, dir, isLocal).outcome.Pass? && w.init.Pass?
    ensures var s := Session(req, client, varsAsEnv, runner, w, fs, prior, dir, id, isLocal);
      var staged := StageExtraFiles(req, client, w, fs, dir, isLocal);
      var ran := RunRunner(runner, w, staged.fs, dir, prior);
      && s.diagnostics == (if ran.outcome.Fail? then Fail(w.errorBuffer + RunnerLabel + ran.outcome.error) else Pass)
      && s.fs == CleanupFiles(ran.fs, dir, MergedFiles(req, client))
      && s.state == (if ran.outcome.Pass? then ran.state.(id := id) else ran.state)
      && s.calls == StagingPhases(isLocal) + [Init] + ran.calls
      && s.deferred == ran.deferred + [CleanupExtraFiles]
  {
  }

  lemma TraceAfterStaging(isLocal: bool, runner: Runner)
    ensures IsPrefix(StagingPhases(isLocal), SessionPhases(isLocal, runner))
    ensures IsPrefix(StagingPhases(isLocal) + [Init], SessionPhases(isLocal, runner))
    ensures DeferredFor(StagingPhases(isLocal), false) == [CleanupExtraFiles]
    ensures DeferredFor(StagingPhases(isLocal) + [Init], false) == [CleanupExtraFiles]
  {
    var sp := SessionPhases(isLocal, runner);
    assert sp == (StagingPhases(isLocal) + [Init]) + RunnerPhases(runner);
    assert sp[..|StagingPhases(isLocal)|] == StagingPhases(isLocal);
    assert sp[..|StagingPhases(isLocal)| + 1] == StagingPhases(isLocal) + [Init];
  }

  lemma TraceAfterRunner(isLocal: bool, runner: Runner, rc: seq<Phase>)
    requires IsPrefix(rc, RunnerPhases(runner)) && StageFiles !in rc
    ensures IsPrefix(StagingPhases(isLocal) + [Init] + rc, SessionPhases(isLocal, runner))
    ensures DeferredFor(StagingPhases(isLocal) + [Init] + rc, false) ==
      (if Plan in rc then [RemovePlanFile] else []) + [CleanupExtraFiles]
  {
    var c := StagingPhases(isLocal) + [Init] + rc;
    PrefixOfAppend(StagingPhases(isLocal) + [Init], rc, RunnerPhases(runner));
    assert StageFiles in c;
    assert Plan in c <==> Plan in rc;
  }

  /** The session attempts a prefix of its phases, all of them when it
      succeeds, and runs the deferred actions those phases registered. */
  lemma SessionCalls(req: Request, client: ApiClient, varsAsEnv: bool, runner: Runner, w: World,
                     fs: Fs, prior: State, dir: Path, id: string, isLocal: bool)
    ensures var s := Session(req, client, varsAsEnv, runner, w, fs, prior, dir, id, isLocal);
      && IsPrefix(s.calls, SessionPhases(isLocal, runner))
      && (s.diagnostics.Pass? ==> s.calls == SessionPhases(isLocal, runner))
      && s.deferred == DeferredFor(s.calls, false)
  {
    if !isLocal && w.fetched.Failure? {
      SessionFetchFails(req, client, varsAsEnv, runner, w, fs, prior, dir, id, isLocal);
      assert SessionPhases(false, runner)[..1] == [GetModule];
    } else {
      var staged := StageExtraFiles(req, client, w, fs, dir, isLocal);
      if staged.outcome.Fail? {
        SessionStagingFails(req, client, varsAsEnv, runner, w, fs, prior, dir, id, isLocal);
        TraceAfterStaging(isLocal, runner);
      } else if w.init.Fail? {
        SessionInitFails(req, client, varsAsEnv, runner, w, fs, prior, dir, id, isLocal);
        TraceAfterStaging(isLocal, runner);
      } else {
        SessionRunsRunner(req, client, varsAsEnv, runner, w, fs, prior, dir, id, isLocal);
        var ran := RunRunner(runner, w, staged.fs, dir, prior);
        RunnerCalls(runner, w, staged.fs, dir, prior);
        TraceAfterRunner(isLocal, runner, ran.calls);
      }
    }
  }

  // The four ways `run` can go, one lemma each.

  /** A missing binary or a missing source ends the run before any working
      directory exists: nothing is configured, changed or cleaned up. */
  lemma RunStopsBeforeWorkDir(req: Request, client: ApiClient, varsAsEnv: bool, runner: Runner,
                              w: World, fs: Fs, prior: State)
    requires TerraformBin(req.terraformVersion, w.terraformOnPath, w.download).Fail? || Identity(req).Failure?
    ensures var r := Run(req, client, varsAsEnv, runner, w, fs, prior);
      && r.diagnostics == (if TerraformBin(req.terraformVersion, w.terraformOnPath, w.download).Fail?
                           then TerraformBin(req.terraformVersion, w.terraformOnPath, w.download)
                           else Fail(MissingSourceMessage))
      && r.fs == fs && r.state == prior && r.config.None?
      && r.calls == (if TerraformBin(req.terraformVersion, w.terraformOnPath, w.download).Fail?
                     then [ResolveBinary] else [ResolveBinary, Validate])
      && r.deferred == []
  {
  }

  lemma RunTempDirFails(req: Request, client: ApiClient, varsAsEnv: bool, runner: Runner,
                        w: World, fs: Fs, prior: State)
    requires TerraformBin(req.terraformVersion, w.terraformOnPath, w.download).Pass?
    requires req.modulePath == "" && req.source != "" && w.tempDir.Failure?
    ensures var r := Run(req, client, varsAsEnv, runner, w, fs, prior);
      && r.diagnostics == Fail(w.tempDir.error)
      && r.fs == fs && r.state == prior && r.config.None?
      && r.calls == [ResolveBinary, Validate, CreateTempDir] && r.deferred == []
  {
  }

  /** A local module is worked on in place, with the module path as id. */
  lemma RunLocal(req: Request, client: ApiClient, varsAsEnv: bool, runner: Runner,
                 w: World, fs: Fs, prior: State)
    requires TerraformBin(req.terraformVersion, w.terraformOnPath, w.download).Pass?
    requires req.modulePath != ""
    ensures var s := LocalSession(req, client, varsAsEnv, runner, w, fs, prior);
      Run(req, client, varsAsEnv, runner, w, fs, prior) == s.(calls := RunHead(true) + s.calls)
  {
  }

  /** A fetched module is worked on in a new temp directory with
      `source:version` as id; the directory is removed after everything else. */
  lemma RunRemote(req: Request, client: ApiClient, varsAsEnv: bool, runner: Runner,
                  w: World, fs: Fs, prior: State)
    requires CreatesTempDir(req, w)
    ensures var s := RemoteSession(req, client, varsAsEnv, runner, w, fs, prior);
      Run(req, client, varsAsEnv, runner, w, fs, prior) ==
        s.(fs := RemoveAll(s.fs, TempDirOf(req, w)), calls := RunHead(false) + s.calls,
           deferred := s.deferred + [RemoveTempDir])
  {
  }

  /** The session's phases and deferred actions seen from the whole run. */
  lemma HeadThenSession(sc: seq<Phase>, pass: bool, isLocal: bool, runner: Runner)
    requires IsPrefix(sc, SessionPhases(isLocal, runner))
    requires pass ==> sc == SessionPhases(isLocal, runner)
    ensures IsPrefix(RunHead(isLocal) + sc, AllPhases(isLocal, runner))
    ensures pass ==> RunHead(isLocal) + sc == AllPhases(isLocal, runner)
    ensures DeferredFor(RunHead(isLocal) + sc, false) == DeferredFor(sc, false)
    ensures DeferredFor(RunHead(isLocal) + sc, true) == DeferredFor(sc, true)
  {
    PrefixOfAppend(RunHead(isLocal), sc, SessionPhases(isLocal, runner));
    assert Plan in RunHead(isLocal) + sc <==> Plan in sc;
    assert StageFiles in RunHead(isLocal) + sc <==> StageFiles in sc;
  }

  /** The phases in `r` are a prefix of the full sequence, all of it on success. */
  predicate CallsInOrder(r: RunResult, isLocal: bool, runner: Runner) {
    && IsPrefix(r.calls, AllPhases(isLocal, runner))
    && (r.diagnostics.Pass? ==> r.calls == AllPhases(isLocal, runner))
  }

  /** Phases run in a fixed order: the phases attempted are a prefix of the
      full sequence (binary, source check, temp dir, module fetch, staging,
      init, then plan/apply/output or destroy; a local module skips the
      source check, the temp dir and the fetch), and a successful run
      attempted all of them. */
  lemma CallsFollowFixedOrder(req: Request, client: ApiClient, varsAsEnv: bool, runner: Runner,
                              w: World, fs: Fs, prior: State)
    ensures CallsInOrder(Run(req, client, varsAsEnv, runner, w, fs, prior), req.modulePath != "", runner)
  {
    var isLocal := req.modulePath != "";
    var bin := TerraformBin(req.terraformVersion, w.terraformOnPath, w.download);
    if bin.Fail? || Identity(req).Failure? {
      RunStopsBeforeWorkDir(req, client, varsAsEnv, runner, w, fs, prior);
      assert AllPhases(isLocal, runner)[..1] == [ResolveBinary];
      assert !isLocal ==> AllPhases(isLocal, runner)[..2] == [ResolveBinary, Validate];
    } else if isLocal {
      var s := LocalSession(req, client, varsAsEnv, runner, w, fs, prior);
      RunLocal(req, client, varsAsEnv, runner, w, fs, prior);
      SessionCalls(req, client, varsAsEnv, runner, w, fs, prior, req.modulePath, req.modulePath, true);
      HeadThenSession(s.calls, s.diagnostics.Pass?, true, runner);
    } else if w.tempDir.Failure? {
      RunTempDirFails(req, client, varsAsEnv, runner, w, fs, prior);
      assert AllPhases(isLocal, runner)[..3] == [ResolveBinary, Validate, CreateTempDir];
    } else {
      var s := RemoteSession(req, client, varsAsEnv, runner, w, fs, prior);
      var dir := TempDirOf(req, w);
      RunRemote(req, client, varsAsEnv, runner, w, fs, prior);
      SessionCalls(req, client, varsAsEnv, runner, w, fs.(dirs := fs.dirs + {dir}), prior, dir,
                   req.source + ":" + req.version, false);
      HeadThenSession(s.calls, s.diagnostics.Pass?, false, runner);
    }
  }

  /** Whether staging the extra files fails, in the session that works in
      `dir` on `fs`; a remote session whose fetch failed never stages. */
  predicate StagingFails(req: Request, client: ApiClient, w: World, fs: Fs, dir: Path, isLocal: bool) {
    (isLocal || w.fetched.Success?) && StageExtraFiles(req, client, w, fs, dir, isLocal).outcome.Fail?
  }

  /** Whether a phase fails, judged from the world alone, given whether
      staging fails. */
  predicate PhaseFails(p: Phase, req: Request, w: World, stagingFails: bool) {
    match p
    case ResolveBinary => TerraformBin(req.terraformVersion, w.terraformOnPath, w.download).Fail?
    case Validate => req.source == ""
    case CreateTempDir => w.tempDir.Failure?
    case GetModule => w.fetched.Failure?
    case StageFiles => stagingFails
    case Init => w.init.Fail?
    case _ => PhaseFailure(p, w).Some?
  }

  /** A trace that stops at its first failing phase: every phase before the
      last one passed, and the run failed exactly when that last one failed. */
  predicate StopsAtFirstFailure(calls: seq<Phase>, failed: bool, req: Request, w: World, stagingFails: bool) {
    && |calls| >= 1
    && (forall i :: 0 <= i < |calls| - 1 ==> !PhaseFails(calls[i], req, w, stagingFails))
    && (failed <==> PhaseFails(calls[|calls| - 1], req, w, stagingFails))
  }

  lemma PassedHeadKeepsStop(head: seq<Phase>, calls: seq<Phase>, failed: bool, req: Request, w: World, sf: bool)
    requires forall i :: 0 <= i < |head| ==> !PhaseFails(head[i], req, w, sf)
    requires StopsAtFirstFailure(calls, failed, req, w, sf)
    ensures StopsAtFirstFailure(head + calls, failed, req, w, sf)
  {
    var c := head + calls;
    assert c[|c| - 1] == calls[|calls| - 1];
    forall i | 0 <= i < |c| - 1
      ensures !PhaseFails(c[i], req, w, sf)
    {
      if i < |head| {
        assert c[i] == head[i];
      } else {
        assert c[i] == calls[i - |head|];
      }
    }
  }

  /** A runner's trace, judged by `PhaseFails`, stops at its first failure. */
  lemma RunnerTraceStops(runner: Runner, w: World, fs: Fs, dir: Path, st: State, req: Request, sf: bool)
    ensures var ran := RunRunner(runner, w, fs, dir, st);
      StopsAtFirstFailure(ran.calls, ran.outcome.Fail?, req, w, sf)
  {
    var ran := RunRunner(runner, w, fs, dir, st);
    RunnerStopsAtFailedPhase(runner, w, fs, dir, st);
    RunnerCalls(runner, w, fs, dir, st);
    forall i | 0 <= i < |ran.calls|
      ensures PhaseFails(ran.calls[i], req, w, sf) <==> PhaseFailure(ran.calls[i], w).Some?
    {
      assert ran.calls[i] == RunnerPhases(runner)[i];
    }
  }

  /** A session that failed before its runner stopped at the failing phase:
      the fetch, staging, or init. */
  lemma EarlyTraceStops(calls: seq<Phase>, failed: bool, req: Request, w: World, sf: bool, isLocal: bool)
    requires failed
    requires || (calls == [GetModule] && !isLocal && w.fetched.Failure?)
             || (calls == StagingPhases(isLocal) && sf && (isLocal || w.fetched.Success?))
             || (calls == StagingPhases(isLocal) + [Init] && !sf && w.init.Fail? && (isLocal || w.fetched.Success?))
    ensures StopsAtFirstFailure(calls, failed, req, w, sf)
  {
  }

  /** A session stops at its first failing phase. */
  lemma SessionStopsAtFailedPhase(req: Request, client: ApiClient, varsAsEnv: bool, runner: Runner, w: World,
                                  fs: Fs, prior: State, dir: Path, id: string, isLocal: bool)
    ensures var s := Session(req, client, varsAsEnv, runner, w, fs, prior, dir, id, isLocal);
      StopsAtFirstFailure(s.calls, s.diagnostics.Fail?, req, w, StagingFails(req, client, w, fs, dir, isLocal))
  {
    var sf := StagingFails(req, client, w, fs, dir, isLocal);
    var s := Session(req, client, varsAsEnv, runner, w, fs, prior, dir, id, isLocal);
    if !isLocal && w.fetched.Failure? {
      SessionFetchFails(req, client, varsAsEnv, runner, w, fs, prior, dir, id, isLocal);
      EarlyTraceStops(s.calls, s.diagnostics.Fail?, req, w, sf, isLocal);
    } else if sf {
      SessionStagingFails(req, client, varsAsEnv, runner, w, fs, prior, dir, id, isLocal);
      EarlyTraceStops(s.calls, s.diagnostics.Fail?, req, w, sf, isLocal);
    } else if w.init.Fail? {
      SessionInitFails(req, client, varsAsEnv, runner, w, fs, prior, dir, id, isLocal);
      EarlyTraceStops(s.calls, s.diagnostics.Fail?, req, w, sf, isLocal);
    } else {
      var staged := StageExtraFiles(req, client, w, fs, dir, isLocal);
      var ran := RunRunner(runner, w, staged.fs, dir, prior);
      SessionRunsRunner(req, client, varsAsEnv, runner, w, fs, prior, dir, id, isLocal);
      RunnerTraceStops(runner, w, staged.fs, dir, prior, req, sf);
      PassedHeadKeepsStop(StagingPhases(isLocal) + [Init], ran.calls, ran.outcome.Fail?, req, w, sf);
    }
  }

  /** The filesystem a run's session starts from: with the temp directory
      when one was created. */
  function SessionFs(req: Request, w: World, fs: Fs): Fs {
    if req.modulePath == "" && w.tempDir.Success? then fs.(dirs := fs.dirs + {TempDirOf(req, w)}) else fs
  }

  /** The directory a run's session works in. */
  function SessionDir(req: Request, w: World): Path {
    if req.modulePath != "" then req.modulePath else if w.tempDir.Success? then TempDirOf(req, w) else ""
  }

  /** A run that failed before its session stopped at the failing phase:
      the binary, the source check, or the temp directory. */
  lemma HeadTraceStops(calls: seq<Phase>, failed: bool, req: Request, w: World, sf: bool)
    requires failed
    requires var binFails := TerraformBin(req.terraformVersion, w.terraformOnPath, w.download).Fail?;
      || (calls == [ResolveBinary] && binFails)
      || (calls == [ResolveBinary, Validate] && !binFails && req.source == "")
      || (calls == [ResolveBinary, Validate, CreateTempDir] && !binFails && req.source != "" && w.tempDir.Failure?)
    ensures StopsAtFirstFailure(calls, failed, req, w, sf)
  {
  }

  /** The phases before a session that ran all passed. */
  lemma HeadPassed(req: Request, w: World, sf: bool, isLocal: bool)
    requires TerraformBin(req.terraformVersion, w.terraformOnPath, w.download).Pass?
    requires !isLocal ==> req.source != "" && w.tempDir.Success?
    ensures forall i :: 0 <= i < |RunHead(isLocal)| ==> !PhaseFails(RunHead(isLocal)[i], req, w, sf)
  {
  }

  /** A run stops at its first failing phase: each phase it attempted before
      the last one passed, and it fails exactly when that last phase failed.
      A missing source is traced as the failed source check, not as a
      failed binary lookup. */
  lemma RunStopsAtFailedPhase(req: Request, client: ApiClient, varsAsEnv: bool, runner: Runner,
                              w: World, fs: Fs, prior: State)
    ensures var r := Run(req, client, varsAsEnv, runner, w, fs, prior);
      var sf := StagingFails(req, client, w, SessionFs(req, w, fs), SessionDir(req, w), req.modulePath != "");
      StopsAtFirstFailure(r.calls, r.diagnostics.Fail?, req, w, sf)
  {
    var isLocal := req.modulePath != "";
    var sfs := SessionFs(req, w, fs);
    var dir := SessionDir(req, w);
    var sf := StagingFails(req, client, w, sfs, dir, isLocal);
    var r := Run(req, client, varsAsEnv, runner, w, fs, prior);
    if TerraformBin(req.terraformVersion, w.terraformOnPath, w.download).Fail? || Identity(req).Failure? {
      RunStopsBeforeWorkDir(req, client, varsAsEnv, runner, w, fs, prior);
      HeadTraceStops(r.calls, r.diagnostics.Fail?, req, w, sf);
    } else if isLocal {
      var s := LocalSession(req, client, varsAsEnv, runner, w, fs, prior);
      RunLocal(req, client, varsAsEnv, runner, w, fs, prior);
      SessionStopsAtFailedPhase(req, client, varsAsEnv, runner, w, fs, prior, dir, req.modulePath, true);
      HeadPassed(req, w, sf, true);
      PassedHeadKeepsStop(RunHead(true), s.calls, s.diagnostics.Fail?, req, w, sf);
    } else if w.tempDir.Failure? {
      RunTempDirFails(req, client, varsAsEnv, runner, w, fs, prior);
      HeadTraceStops(r.calls, r.diagnostics.Fail?, req, w, sf);
    } else {
      var s := RemoteSession(req, client, varsAsEnv, runner, w, fs, prior);
      RunRemote(req, client, varsAsEnv, runner, w, fs, prior);
      SessionStopsAtFailedPhase(req, client, varsAsEnv, runner, w, sfs, prior, dir,
                                req.source + ":" + req.version, false);
      HeadPassed(req, w, sf, false);
      PassedHeadKeepsStop(RunHead(false), s.calls, s.diagnostics.Fail?, req, w, sf);
    }
  }

  /** The deferred clean-ups that run are exactly those registered before
      the run stopped, in reverse order of registration: plan file, extra
      files, temp directory. So extra files are cleaned after a staging,
      init or runner failure but not after a module-fetch failure, and the
      temp directory is removed last on every exit after its creation. */
  lemma DeferredRunInReverseOrder(req: Request, client: ApiClient, varsAsEnv: bool, runner: Runner,
                                  w: World, fs: Fs, prior: State)
    ensures var r := Run(req, client, varsAsEnv, runner, w, fs, prior);
      r.deferred == DeferredFor(r.calls, CreatesTempDir(req, w))
  {
    var bin := TerraformBin(req.terraformVersion, w.terraformOnPath, w.download);
    if bin.Fail? || Identity(req).Failure? {
      RunStopsBeforeWorkDir(req, client, varsAsEnv, runner, w, fs, prior);
    } else if req.modulePath != "" {
      LocalDeferred(req, client, varsAsEnv, runner, w, fs, prior);
    } else if w.tempDir.Failure? {
      RunTempDirFails(req, client, varsAsEnv, runner, w, fs, prior);
    } else {
      RemoteDeferred(req, client, varsAsEnv, runner, w, fs, prior);
    }
  }

  lemma LocalDeferred(req: Request, client: ApiClient, varsAsEnv: bool, runner: Runner,
                      w: World, fs: Fs, prior: State)
    requires TerraformBin(req.terraformVersion, w.terraformOnPath, w.download).Pass?
    requires req.modulePath != ""
    ensures var r := Run(req, client, varsAsEnv, runner, w, fs, prior);
      r.deferred == DeferredFor(r.calls, false)
  {
    var s := LocalSession(req, client, varsAsEnv, runner, w, fs, prior);
    RunLocal(req, client, varsAsEnv, runner, w, fs, prior);
    SessionCalls(req, client, varsAsEnv, runner, w, fs, prior, req.modulePath, req.modulePath, true);
    HeadThenSession(s.calls, false, true, runner);
  }

  lemma RemoteDeferred(req: Request, client: ApiClient, varsAsEnv: bool, runner: Runner,
                       w: World, fs: Fs, prior: State)
    requires CreatesTempDir(req, w)
    ensures var r := Run(req, client, varsAsEnv, runner, w, fs, prior);
      r.deferred == DeferredFor(r.calls, true)
  {
    var s := RemoteSession(req, client, varsAsEnv, runner, w, fs, prior);
    var dir := TempDirOf(req, w);
    RunRemote(req, client, varsAsEnv, runner, w, fs, prior);
    SessionCalls(req, client, varsAsEnv, runner, w, fs.(dirs := fs.dirs + {dir}), prior, dir,
                 req.source + ":" + req.version, false);
    HeadThenSession(s.calls, false, false, runner);
  }
}

=== FILE: varcoercion.dfy ===
/** Coercion of map attributes (`vars`, `backend_config`, `envs`) into the
    string maps the Terraform client takes. */
module VarCoercion {
  import opened Wrappers
  import opened GoText

  /** Terraform reads an environment variable `TF_VAR_x` as module variable `x`. */
  const EnvVarPrefix: string := "TF_VAR_"

  /** Every value rendered with `fmt.Sprint`, under its own key. */
  function ToStringMap(m: map<string, Value>): (r: map<string, string>)
    ensures r.Keys == m.Keys
    ensures forall k :: k in m ==> r[k] == Sprint(m[k])
  {
    map k | k in m :: Sprint(m[k])
  }

  /** The environment key that delivers module variable `k`. */
  function EnvKey(k: string): (r: string)
    ensures IsPrefix(EnvVarPrefix, r) && r[|EnvVarPrefix|..] == k
  {
    EnvVarPrefix + k
  }

  /** Every value rendered with `fmt.Sprint`, under the key prefixed with `TF_VAR_`. */
  function ToEnvStringMap(m: map<string, Value>): (r: map<string, string>)
    ensures r.Keys == set k | k in m :: EnvKey(k)
    ensures forall k :: k in m ==> r[EnvKey(k)] == Sprint(m[k])
  {
    map k | k in m :: EnvKey(k) := Sprint(m[k])
  }

  /** The inverse view: the variables an environment delivers, under their
      names without the prefix; keys without the prefix deliver nothing. */
  function EnvToVars(env: map<string, string>): map<string, string> {
    var names := set e | e in env && IsPrefix(EnvVarPrefix, e) :: e[|EnvVarPrefix|..];
    PrefixedNamesAreKeys(env, names);
    map k | k in names :: env[EnvKey(k)]
  }

  lemma PrefixedNamesAreKeys(env: map<string, string>, names: set<string>)
    requires names == set e | e in env && IsPrefix(EnvVarPrefix, e) :: e[|EnvVarPrefix|..]
    ensures forall k :: k in names ==> EnvKey(k) in env
  {
    forall k | k in names
      ensures EnvKey(k) in env
    {
      var e :| e in env && IsPrefix(EnvVarPrefix, e) && e[|EnvVarPrefix|..] == k;
      assert e == e[..|EnvVarPrefix|] + e[|EnvVarPrefix|..];
    }
  }

  /** Terraform sees through the environment exactly the variables it would
      have been given directly. */
  lemma EnvDeliversSameVars(m: map<string, Value>)
    ensures EnvToVars(ToEnvStringMap(m)) == ToStringMap(m)
  {
    var env := ToEnvStringMap(m);
    var back := EnvToVars(env);
    forall k | k in m
      ensures k in back && back[k] == Sprint(m[k])
    {
      assert EnvKey(k) in env;
    }
    forall k | k in back
      ensures k in m
    {
      var e :| e in env && IsPrefix(EnvVarPrefix, e) && e[|EnvVarPrefix|..] == k;
      var k' :| k' in m && e == EnvKey(k');
      assert k' == e[|EnvVarPrefix|..];
    }
    assert back.Keys == m.Keys;
  }

  /** Both coercions keep the number of entries: prefixing is injective. */
  lemma CoercionKeepsSize(m: map<string, Value>)
    ensures |ToStringMap(m)| == |m|
    ensures |ToEnvStringMap(m)| == |m|
  {
    assert ToStringMap(m).Keys == m.Keys;
    PrefixImageSize(m.Keys);
    assert ToEnvStringMap(m).Keys == set k | k in m.Keys :: EnvKey(k);
  }

  lemma {:induction false} PrefixImageSize(s: set<string>)
    ensures |set k | k in s :: EnvKey(k)| == |s|
  {
    if s != {} {
      var x :| x in s;
      var rest := s - {x};
      PrefixImageSize(rest);
      var img := set k | k in s :: EnvKey(k);
      var imgRest := set k | k in rest :: EnvKey(k);
      assert img == imgRest + {EnvKey(x)};
      assert EnvKey(x) !in imgRest;
    } else {
      assert (set k | k in s :: EnvKey(k)) == {};
    }
  }
}

=== FILE: wrappers.dfy ===
/** Failure-carrying datatypes shared by the model. Errors are the text a Go
    `error` would print, so they are plain strings. */
module Wrappers {

  /** A possibly-absent value; `None` also stands for a Go `nil` map. */
  datatype Option<+T> = None | Some(value: T)

  /** A value or the text of the error that prevented it. */
  datatype Result<+T> = Success(value: T) | Failure(error: string)

  /** What a Go function returning only `error` reports: `nil` or an error text. */
  datatype Outcome = Pass | Fail(error: string)

  /** True iff `p` is a prefix of `s`. */
  predicate IsPrefix<T(==)>(p: seq<T>, s: seq<T>) {
    |p| <= |s| && s[..|p|] == p
  }

  /** True iff `t` is a suffix of `s`. */
  predicate IsSuffix<T(==)>(t: seq<T>, s: seq<T>) {
    |t| <= |s| && s[|s| - |t|..] == t
  }
}
